=== FILE: README.md ===
# SCons script session, DocBook helpers and compilation database in Dafny

This project models three pieces of SCons, the Python build tool, and proves
properties about them.

- **The `SCons.Script` session state** (`script_session.dfy`). This covers:
  - the command-line argument registry (`ARGUMENTS`, `ARGLIST`);
  - the target registry (`COMMAND_LINE_TARGETS`, `BUILD_TARGETS`, the shadow
    list `_build_plus_default`, `DEFAULT_TARGETS`);
  - the two-state default-target resolver `_Get_Default_Targets`;
  - the help-text accumulator `HelpFunction`;
  - the missing-SConscript flag.

  The module-level globals become one `Session` object. The two `TargetList`
  objects become a `TargetList` class. SCons freezes such a list by swapping
  its `_add_Default` and `_clear` methods for `_do_nothing`; here that is a
  `frozen` flag. `Session.Valid()` is the invariant every operation keeps:
  - `ARGUMENTS` is what `ARGLIST` derives, the last value per key;
  - the two `TargetList`s freeze together;
  - the help text is its baseline followed by every `Help()` text, in call
    order.
- **The bootstrap code of `SCons.Script`** (`script_bootstrap.dfy`). This is
  the scan for `--debug=memoizer` that runs before the engine is imported. It
  also holds, as data, the table of global names that get bound to the
  default construction environment.
- **The DocBook tool helpers** (`docbook.dfy`). These are:
  - target/source normalisation;
  - suffix and stem handling;
  - the output-directory choice;
  - priority-ordered detection of command-line tools;
  - the stylesheet default;
  - the `$base_dir` emitter;
  - builder selection.
- **The compilation-database tool** (`compilation_db.dfy`). This covers:
  - the `CompilationDatabase` emitter;
  - the per-object emitter that records one database node in the global
    registry;
  - the entry action;
  - the order-preserving path and filter pass of the writer;
  - the always-rebuild decider.

`py_text.dfy` and `posix_path.dfy` give the Python string, list and
`posixpath` operations the code relies on, with their own properties. These
are `str.split`, `str.join`, `startswith`/`endswith`, `list.remove`, and
`posixpath.split`, `join` and `splitext`. `script_scenarios.dfy` states what the
contracts give for three short SConscript-shaped call sequences on a fresh
`Session`. These are proved, not executed.

Collaborators the code calls but does not define are function parameters:
- `env.arg2nodes`, `fs.Dir('.')` and `PrintHelp`;
- `env.WhereIs` and `os.path.isdir`;
- `strfunction`;
- `is_derived`, `srcnode`, `abspath` and `path` on nodes;
- `fnmatch`.

A construction environment in the DocBook tool is a map from variable names
to strings, where `""` is the unset value. `env[key]` on a missing key is a
`KeyError` outcome, not a crash.

## Model

| member | source | states |
|---|---|---|
| ScriptSession.LastValue | SCons/Script/__init__.py:211-216 | the value of the last `ARGLIST` entry for a key, `None` when there is none; characterised by `LastValueOf` |
| ScriptSession.LastValueOf | SCons/Script/__init__.py:211-216 | the last value for a key comes from an entry of `ARGLIST`, and it is `None` exactly when no entry has that key |
| ScriptSession.Derive | SCons/Script/__init__.py:211-216 | `ARGUMENTS` as the in-order assignments `ARGUMENTS[a] = b` leave it; characterised by `DeriveBindings` and `DeriveIsLastValue` |
| ScriptSession.DeriveBindings | SCons/Script/__init__.py:211-216 | every key of `ARGLIST` is bound in `ARGUMENTS`, and every binding is an entry of `ARGLIST` |
| ScriptSession.Session.Valid | SCons/Script/__init__.py:186-330 | the invariant of the module's globals: `ARGUMENTS` is what `ARGLIST` derives; `BUILD_TARGETS` and `_build_plus_default` are distinct lists frozen together; `help_text` is `None` before the first `Help()` and afterwards the baseline followed by every text, in call order |
| ScriptSession.DeriveIsLastValue | SCons/Script/__init__.py:211-216 | `ARGUMENTS[k]` is the value of the last `ARGLIST` entry for `k`, and `k` is absent when there is none |
| ScriptSession.LastValueRemoveOther | SCons/Script/__init__.py:229-251 | removing one `(a, v)` entry leaves the last value of every other key unchanged |
| ScriptSession.DeriveAfterRemove | SCons/Script/__init__.py:229-251 | the map derived after removing a pair equals the old map, with the pair's key popped and then reset to its last remaining value |
| ScriptSession.Reset | SCons/Script/__init__.py:243-251 | the reset key holds exactly the given value, or is absent for `None`; every other key keeps its value |
| ScriptSession.FirstMalformed | SCons/Script/__init__.py:213-214 | the index of the first token without `=`: every token before it has one |
| ScriptSession.Assignment | SCons/Script/__init__.py:214 | `token.split('=', 1)`: the key, `=` and the value give the token back, and the key holds no `=` |
| ScriptSession.AssignmentRoundTrip | SCons/Script/__init__.py:214 | splitting `k=v` gives back `(k, v)` whenever `k` has no `=` |
| ScriptSession.Assignments | SCons/Script/__init__.py:213-216 | one `ARGLIST` entry per token, in order |
| ScriptSession.Session.constructor | SCons/Script/__init__.py:194-198 | every registry starts empty, nothing is frozen, the resolver is in its first state, `help_text` is `None` and `_no_missing_sconscript` is true |
| ScriptSession.Session.AddArguments | SCons/Script/__init__.py:211-216 | `ARGLIST` gains the split tokens in input order, up to the first token without `=`, which is reported as `ValueError`; the last-value invariant is kept |
| ScriptSession.Session.Record | SCons/Script/__init__.py:215-216 | one assignment is appended to `ARGLIST` and the last-value invariant still holds |
| ScriptSession.Session.RemoveArgument | SCons/Script/__init__.py:229-251 | the empty string changes nothing; a token without `=` is `ValueError` and changes nothing; otherwise `ARGLIST` loses the first matching pair, and is unchanged when there is none; the invariant is kept |
| ScriptSession.Session.RemovePair | SCons/Script/__init__.py:242-251 | removes the first occurrence of the pair, pops the key and restores its last remaining value |
| ScriptSession.Session.RestoreArgument | SCons/Script/__init__.py:248-251 | after the loop, the popped key holds its last `ARGLIST` value, or is absent when it has none |
| ScriptSession.TargetList.constructor | SCons/Script/__init__.py:186-192 | a fresh list is empty and not frozen |
| ScriptSession.TargetList.AddDefault | SCons/Script/__init__.py:189-190 | extends the list unless it is frozen; when frozen the list is unchanged |
| ScriptSession.TargetList.Clear | SCons/Script/__init__.py:191-192 | empties the list unless it is frozen |
| ScriptSession.TargetList.Extend | SCons/Script/__init__.py:221-224 | a direct `extend` appends whether or not the list is frozen |
| ScriptSession.TargetList.Freeze | SCons/Script/__init__.py:222-226 | after the method swap the list is frozen and its items are unchanged |
| ScriptSession.TargetList.Remove | SCons/Script/__init__.py:270-273 | `remove` deletes the first occurrence; `found` is false exactly where `list.remove` raises |
| ScriptSession.TargetList.RemoveIfPresent | SCons/Script/__init__.py:270-273 | `if x in l: l.remove(x)` removes the first occurrence, ignores the frozen flag and keeps it |
| ScriptSession.Session.AddTargets | SCons/Script/__init__.py:218-227 | an empty list changes nothing; otherwise the names are appended in order to all three lists and both `TargetList`s are frozen for good |
| ScriptSession.Session.RemoveTarget | SCons/Script/__init__.py:253-273 | the first occurrence of the name leaves each of the three lists, frozen or not; an empty name changes nothing; `DEFAULT_TARGETS` is outside the frame |
| ScriptSession.DefaultTargetsNotYetSet | SCons/Script/__init__.py:278-281 | `[fs.Dir('.')]` when `d` is `None`, else `d` |
| ScriptSession.Session.GetDefaultTargets | SCons/Script/__init__.py:275-283 | before any `Default()` call this is the fallback rule; afterwards it is `DEFAULT_TARGETS` |
| ScriptSession.DeclaredResolverIgnoresArguments | SCons/Script/__init__.py:275-276 | once defaults are declared, the resolver gives the same answer for any arguments |
| ScriptSession.Session.SetDefaultTargets | SCons/Script/__init__.py:285-305 | switches the resolver for good; `DEFAULT_TARGETS` follows the items in order; the two `TargetList`s do too unless frozen, and are left exactly as they were when frozen |
| ScriptSession.Session.ApplyDefaultItem | SCons/Script/__init__.py:290-305 | one item: `None` clears, a node is appended, anything else is resolved and its nodes appended; frozen lists are untouched |
| ScriptSession.Step | SCons/Script/__init__.py:290-305 | one `Default()` argument on an unfrozen list: `None` clears it; otherwise the list only grows at its end, by the node or by the nodes `arg2nodes` resolves |
| ScriptSession.Apply | SCons/Script/__init__.py:289-305 | the reference definition of the loop: the arguments applied strictly in order, each by `Step`; its properties are `ApplyConcat`, `ClearThenAdditions`, `ApplyWithoutClear` and `ApplyLockstep` |
| ScriptSession.ApplyConcat | SCons/Script/__init__.py:289-305 | processing `a + b` is processing `a`, then `b` |
| ScriptSession.ClearThenAdditions | SCons/Script/__init__.py:290-296 | after a clear, only the items that follow it count, whatever came before |
| ScriptSession.ApplyWithoutClear | SCons/Script/__init__.py:297-305 | without a clear, the items only append to what was there |
| ScriptSession.ApplyLockstep | SCons/Script/__init__.py:285-305 | an unfrozen `BUILD_TARGETS` that starts as `DEFAULT_TARGETS` stays equal to it, item by item |
| ScriptSession.Session.Help | SCons/Script/__init__.py:311-330 | the first call fixes the baseline, `""` or the captured `PrintHelp(local_only)`; later calls keep it; each call appends its text |
| ScriptSession.ConcatAppend | SCons/Script/__init__.py:330 | one more call adds its text at the end of the accumulated text |
| ScriptSession.Session.SetMissingSConscriptError | SCons/Script/__init__.py:339-348 | stores the flag and returns the previous value |
| ScriptScenarios.ArgumentOverrideAndRemoval | SCons/Script/__init__.py:211-251 | `a=1 a=2` gives `ARGUMENTS['a'] == '2'`; removing `a=2` gives `'1'` back |
| ScriptScenarios.CommandLineTargetsWinOverDefault | SCons/Script/__init__.py:218-227 | after command-line target `x`, `Default('y')` changes `DEFAULT_TARGETS` but not `BUILD_TARGETS` |
| ScriptScenarios.HelpAccumulates | SCons/Script/__init__.py:311-330 | `Help('A')` then `Help('B')` gives `'AB'` |
| ScriptBootstrap.DebugFields | SCons/Script/__init__.py:62 | the fields after `--debug=`, never an empty list |
| ScriptBootstrap.ScannedArgs | SCons/Script/__init__.py:60 | `sys.argv + os.environ.get('SCONSFLAGS', '').split()`, an unset variable read as `''` |
| ScriptBootstrap.AllDebugFields | SCons/Script/__init__.py:61-66 | the comma-separated fields of every `--debug=` token, chained in token order; characterised by `InAllDebugFields` |
| ScriptBootstrap.InAllDebugFields | SCons/Script/__init__.py:61-66 | a field is in the chained list exactly when some `--debug=` token carries it |
| ScriptBootstrap.MemoizerRequested | SCons/Script/__init__.py:60-67 | true exactly when some `--debug=` token on the command line or in `SCONSFLAGS` has `memoizer` among its comma-separated fields |
| ScriptBootstrap.MemoizerAmongOthers | SCons/Script/__init__.py:60-67 | `memoizer` is found wherever it sits in a comma-separated `--debug=` list |
| ScriptBootstrap.DebugFieldsOfJoin | SCons/Script/__init__.py:62 | the fields of `--debug=` followed by a comma-joined list are that list |
| ScriptBootstrap.WithPolicy | SCons/Script/__init__.py:451-452 | every name of the table is bound with the same expansion policy, in order |
| ScriptBootstrap.DefaultEnvironmentBindings | SCons/Script/__init__.py:368-491 | one binding per name of the tables `GlobalDefaultEnvironmentFunctions` (lines 368-416) and `GlobalDefaultBuilders` (lines 418-447), which the constants of the same names copy name for name, plus two; every binding but the last has `subst=0`, `SConscript` is next to last and `Command` comes last, with `subst=1`; `BindingsFollowTables` gives the order |
| ScriptBootstrap.BindingsFollowTables | SCons/Script/__init__.py:368-452 | the first bindings are the table names themselves, position for position in table order, each bound with `subst=0` |
| PyText.SplitOnce | SCons/Script/__init__.py:214 | `None` exactly when the separator is absent; otherwise the head, the separator and the tail give the text back, and the head holds no separator |
| PyText.Split | SCons/Script/__init__.py:62 | `str.split(c)`: never empty, and no piece holds the separator |
| PyText.Join | SCons/Script/__init__.py:62 | `c.join(parts)`: the pieces with one separator between neighbours; `JoinSplit` and `SplitJoin` make it the inverse of `Split` |
| PyText.JoinSplit | SCons/Script/__init__.py:62 | joining the pieces with the separator gives the text back |
| PyText.SplitJoin | SCons/Script/__init__.py:62 | splitting a join of separator-free pieces gives the pieces back |
| PyText.WordLength | SCons/Script/__init__.py:60 | the length of the leading run of non-space characters |
| PyText.SplitWhitespace | SCons/Script/__init__.py:60 | `str.split()`: every piece is a non-empty run of non-space characters; `SplitWhitespaceWeaves` says which runs |
| PyText.SplitWhitespaceWeaves | SCons/Script/__init__.py:60 | the text is the pieces of `str.split()`, in order, with all-whitespace gaps before, between and after them, every gap between two pieces non-empty: the pieces are exactly the maximal non-space runs |
| PyText.SplitWhitespaceJoin | SCons/Script/__init__.py:60 | space-joined words split back into the same words |
| PyList.IndexOf | SCons/Script/__init__.py:244 | the first position of `x`, with no `x` before it, or the length exactly when `x` is absent; it also locates the separator for `str.split` |
| PyList.RemoveFirst | SCons/Script/__init__.py:244 | `list.remove(x)` when `x` is present, and the list unchanged otherwise; characterised by `RemoveFirstSpec` |
| PyList.RemoveFirstSpec | SCons/Script/__init__.py:244 | `list.remove` drops exactly the first occurrence and keeps the rest in order; it changes nothing when `x` is absent; the multiset loses one `x` |
| PosixPath.RFind | SCons/Tool/docbook/__init__.py:137 | the last position of the character, with none after it |
| PosixPath.RStripSlashes | SCons/Tool/docbook/__init__.py:137 | a prefix of the text with no trailing `/`, and only slashes removed |
| PosixPath.Split | SCons/Tool/docbook/__init__.py:137 | `posixpath.split`: the tail is everything after the last `/`, and the head is everything before it, with trailing slashes dropped unless the head is only slashes; characterised by `SplitParts` |
| PosixPath.SplitParts | SCons/Tool/docbook/__init__.py:137 | `posixpath.split`: the tail has no `/` and ends the path, and the head starts it; a path without `/` is all tail; a trailing `/` gives an empty tail |
| PosixPath.EmptyTail | SCons/Tool/docbook/__init__.py:137-147 | the tail is empty exactly for `""` and for paths ending in `/` |
| PosixPath.Join | SCons/Tool/docbook/__init__.py:292 | `posixpath.join(a, b)`: an absolute `b` replaces `a`; otherwise `b` follows `a`, with a `/` between them unless `a` is empty or ends in `/` |
| PosixPath.JoinAll | SCons/Tool/docbook/__init__.py:95-96 | `os.path.join(*path_args)` for one or more parts, as pairwise joins from the left |
| PosixPath.JoinRelative | SCons/Tool/docbook/__init__.py:292 | joining a relative name onto a directory starts with the directory and ends with the name |
| PosixPath.SplitJoin | SCons/Tool/docbook/__init__.py:292 | splitting `join(a, b)` gives `(a, b)` for a plain name `b` and a directory `a` without a trailing `/` |
| PosixPath.SplitExt | SCons/Tool/docbook/__init__.py:123 | `posixpath.splitext`: split before the last dot of the final component, unless only dots come before it in that component; characterised by `SplitExtParts` |
| PosixPath.SplitExtParts | SCons/Tool/docbook/__init__.py:123 | `posixpath.splitext`: root plus extension is the path; the extension is empty or one dot-led run with no further dot and no `/` |
| Docbook.ExtendTargetsSources | SCons/Tool/docbook/__init__.py:78-89 | a falsy source becomes the target list; the targets stay an unchanged prefix, padded with exactly the sources past their length |
| Docbook.ExtendedTargetsPairSources | SCons/Tool/docbook/__init__.py:86-89 | after padding, each source pairs with its own target, or with itself where there was none |
| Docbook.SelectBuilder | SCons/Tool/docbook/__init__.py:99-104 | the lxml builder exactly when lxml is there and xsltproc is not preferred |
| Docbook.EnsureSuffix | SCons/Tool/docbook/__init__.py:106-112 | the result ends with the suffix; the name is unchanged when it already does |
| Docbook.EnsureSuffixIdempotent | SCons/Tool/docbook/__init__.py:106-112 | applying it twice is applying it once |
| Docbook.EnsureSuffixStem | SCons/Tool/docbook/__init__.py:114-125 | the name ends with the suffix and starts with the stem; a missing suffix is appended and the stem is the old name; otherwise stem plus extension is the name |
| Docbook.StemDropsExtension | SCons/Tool/docbook/__init__.py:123 | for a dot-led suffix with no other dot or `/`, `splitext` of `stem + suffix` is `(stem, suffix)` when the stem's last component has a non-dot character |
| Docbook.EnsureSuffixStemOfExtended | SCons/Tool/docbook/__init__.py:114-125 | so a name built as `stem + suffix` returns that stem |
| Docbook.HiddenNameStem | SCons/Tool/docbook/__init__.py:123 | `.pdf` with suffix `.pdf` keeps `.pdf` as its stem |
| Docbook.CreateOutputDir | SCons/Tool/docbook/__init__.py:135-149 | `base_dir` itself when it ends with `/`, the head of the split for any other non-empty path, nothing for `""`; `makedirs` only for a non-empty choice that is not already a directory |
| Docbook.Keys | SCons/Tool/docbook/__init__.py:189 | `cdict.keys()` in dictionary order |
| Docbook.LookupTool | SCons/Tool/docbook/__init__.py:197 | `cdict[tool]`, the command of the table's entry for that tool; `None` exactly where it raises `KeyError` |
| Docbook.FirstFound | SCons/Tool/docbook/__init__.py:190-194 | the first tool `WhereIs` finds: every earlier one is not found |
| Docbook.ClTool | SCons/Tool/docbook/__init__.py:177-197 | `__detect_cl_tool` as a function: the environment after detection, and the key whose lookup raised `KeyError`, if any; its properties are the `ClTool…` lemmas |
| Docbook.DetectClTool | SCons/Tool/docbook/__init__.py:177-197 | the loop with `break` computes the detection function over the priority list, or the table's keys when none is given |
| Docbook.ClToolTouchesTwoKeys | SCons/Tool/docbook/__init__.py:177-197 | only `chainkey` and `chainkey + 'COM'` can change |
| Docbook.ClToolPicksFirstFound | SCons/Tool/docbook/__init__.py:184-195 | a set `chainkey` or no tool found changes nothing; otherwise `chainkey` becomes the path of the first tool found |
| Docbook.ClToolFillsCommand | SCons/Tool/docbook/__init__.py:190-197 | once a tool is found for an unset `chainkey`, a missing `chainkey + 'COM'` is a `KeyError`; an empty one is filled with the table's command for that tool, or is a `KeyError` when the table has no entry for it |
| Docbook.ClToolKeepsSetCommand | SCons/Tool/docbook/__init__.py:196-197 | a command line that is already set is never replaced |
| Docbook.PrefilledCommandSurvives | SCons/Tool/docbook/__init__.py:160-197 | when `DOCBOOK_XSLTPROCCOM` already holds xsltproc's command line and only xalan is found, the xalan path is chosen but xsltproc's command line stays |
| Docbook.DetectAll | SCons/Tool/docbook/__init__.py:199-214 | the detection sequence of `_detect`: xsltproc and xmllint only without lxml or when xsltproc is preferred, then the fo processor, each run on the environment the previous one left, stopping at the first `KeyError` |
| Docbook.Detect | SCons/Tool/docbook/__init__.py:199-214 | a set `DOCBOOK_PREFER_XSLTPROC` turns the preference on; then the xslt and xmllint tools (only without lxml or when preferred) and the fo processor are detected, stopping at a `KeyError` |
| Docbook.DetectWithLxmlOnlyFop | SCons/Tool/docbook/__init__.py:209-214 | with lxml and no preference only `DOCBOOK_FOP` and `DOCBOOK_FOPCOM` can change |
| Docbook.InitXslStylesheet | SCons/Tool/docbook/__init__.py:91-97 | an existing `DOCBOOK_XSL` is kept. Otherwise a non-empty `xsl` keyword is used, or, without the keyword, a non-empty user variable. When the value chosen is empty, which includes an `xsl` keyword that is present but `''`, it is `os.path.join(scriptpath, db_xsl_folder, *default_path)`. The result is never empty and no other keyword changes |
| Docbook.JoinAllNonEmpty | SCons/Tool/docbook/__init__.py:95-96 | joining paths of which one is non-empty gives a non-empty path |
| Docbook.EmitXslBasedir | SCons/Tool/docbook/__init__.py:287-295 | without `$base_dir` targets and sources pass through; with it each target is joined onto it, length and order kept, source unchanged |
| Docbook.EmittedTargetInBaseDir | SCons/Tool/docbook/__init__.py:290-292 | a plain file name emitted under a base directory splits back into that directory and that name |
| CompilationDb.ChangedSinceLastBuildNode | SCons/Tool/compilation_db.py:64-66 | always true, whatever the arguments |
| CompilationDb.CompilationDbEmitter | SCons/Tool/compilation_db.py:190-204 | the sources are always dropped; a non-empty target is kept; with no target a lone source names the database, else `compile_commands.json` |
| CompilationDb.EmitterIdempotent | SCons/Tool/compilation_db.py:190-204 | running the emitter on its own output changes nothing |
| CompilationDb.UseAbspath | SCons/Tool/compilation_db.py:151 | true exactly for `True`, `1`, `'True'` and `'true'` |
| CompilationDb.EntryOf | SCons/Tool/compilation_db.py:131-143 | the entry holds the directory, the command, the first source and the first output; `None` exactly where indexing raises `IndexError` |
| CompilationDb.DbNode.constructor | SCons/Tool/compilation_db.py:58-61 | a new database node holds the captured output, source and command string; it has no entry yet and no `AlwaysBuild`/`NoCache` mark |
| CompilationDb.DbNode.Changed | SCons/Tool/compilation_db.py:61-66 | the decider installed on every database node reports it changed for any child, target and stored build information |
| CompilationDb.DbNode.EntryAction | SCons/Tool/compilation_db.py:119-145 | the entry with the expanded command line is written to the node; with no source or no output nothing is written |
| CompilationDb.Registry.constructor | SCons/Tool/compilation_db.py:53 | the registry starts empty |
| CompilationDb.Registry.EmitCompilationDbEntry | SCons/Tool/compilation_db.py:80-109 | target and source come back unchanged; exactly one fresh node, marked `AlwaysBuild` and `NoCache`, is appended to the registry |
| CompilationDb.PathEntryOf | SCons/Tool/compilation_db.py:155-175 | directory and command are copied; a non-derived source is replaced by its source node; both paths are absolute or relative as the flag says; a set filter keeps only matching outputs |
| CompilationDb.RecordKeptIffMatches | SCons/Tool/compilation_db.py:169-170 | a record is kept exactly when no filter is set or its output path matches |
| CompilationDb.Records | SCons/Tool/compilation_db.py:148-177 | the records the write pass produces from the registry, in registry order; `None` where a node holds no entry; its properties are `RecordsOfWritten`, `RecordsAppend` and `RecordKeptIffMatches` |
| CompilationDb.Registry.WriteCompilationDb | SCons/Tool/compilation_db.py:148-177 | the loop with `continue` computes the records of the registry in order, and fails on a node that holds no entry |
| CompilationDb.RecordsOfWritten | SCons/Tool/compilation_db.py:154-177 | once every node holds an entry the pass succeeds, with at most one record per node, exactly one without a filter, and every kept output matching a set filter |
| CompilationDb.RecordsAppend | SCons/Tool/compilation_db.py:154-177 | the records of a concatenation are the concatenated records, so the registry order is kept |

## Left out

- The plain lists are values, not shared objects. `DEFAULT_TARGETS` is
  cleared in place so that every reference to it sees the change, and the
  `SConscript.DefaultTargets` alias and the others (SCons/Script/__init__.py:469-473)
  share the registries. Only the two `TargetList` objects are modelled as
  shared references.
- `DefaultEnvironmentCall` is in SCons/Script/SConscript.py, which is not part
  of this model. Only the table of names and their expansion policy is kept,
  as data.
- `SCons.Memoize.EnableMemoization` and the `delayed_warnings` queue are
  import-time calls into other modules. Only the token scan that decides
  them is modelled.
- The re-exported aliases of `SCons.Script` are bindings to other modules and
  hold no logic. `Variables` is one more such call.
- `os.path.join`, `split` and `splitext` follow POSIX `posixpath` with `/`.
  Windows separators and drive letters are not modelled.
- Python's `str.isspace` is taken as a fixed list of code points. Unicode
  database changes across Python versions are not modelled.
- The DocBook lxml and XSLT builders, XInclude, epub zipping, man-page
  parsing, dependency scanners and the pseudo-builders (`DocbookHtml` and the
  others) are file-system and library I/O. `os.makedirs` is reported, not
  performed.
- Docbook.ExtendTargetsSources: the target and source are names or lists of
  names. A Python `None` target, a node object and the in-place `extend` of
  the caller's own list, which the caller can observe, are not modelled.
- CompilationDb.DbNode.constructor: the decider it installs is the fixed
  member function `DbNode.Changed`, not an attribute that is set. The
  pluggable decider of SCons nodes is not part of this model.
- CompilationDb.Registry.EmitCompilationDbEntry: `AlwaysBuild` and `NoCache`
  are flags on the database node. The `__COMPILATIONDB_Entry` builder call
  that wraps the node, with its `source=[]`, is not modelled.
- Docbook.InitXslStylesheet: `env.subst(user_xsl_var)` is a parameter, already
  substituted.
- ScriptSession.Session.SetDefaultTargets: an argument of `Default()` is
  `None`, a node or a string. A list argument or another object that
  `arg2nodes` resolves is taken as the strings it stands for, one after the
  other.
- Docbook.DetectClTool: environment values are strings, and "falsy" means
  `""`. Other Python values and `WhereIs` returning `None` are folded into
  `""`.
- CompilationDb.UseAbspath: Python also treats `1.0` as equal to `1` and
  `True`. Floats are folded into `Other`, so `1.0` is reported as false.
- `json.dump` formatting, `strfunction` expansion, `Dir('#').abspath`, node
  `read`/`write` and builder registration in `generate` are foreign calls.
  The node's stored value is a field, and expansion is a parameter.
- `scan_compilation_db` returns the registry list itself. That list is the
  `entries` field of `CompilationDb.Registry`.
- `__get_xml_text` and the regular expressions of the DocBook tool are XML and
  regex processing outside the helpers modelled here.
- ScriptSession.Session.RemoveArgument follows the code, not a reading of
  removal as something that never fails. A non-empty token without `=` makes
  the unpack in `_Remove_Argument` raise `ValueError`, and the model reports
  this as `Malformed`, with nothing changed.

=== FILE: compilation_db.dfy ===
/**
 * The compilation-database tool (`SCons.Tool.compilation_db`): the emitter
 * that records one database node per compiled object, the action that
 * stores the evaluated command line on such a node, and the writer that
 * turns the recorded entries into `compile_commands.json` records.
 *
 * File nodes are opaque `FileRef`s; what SCons knows about them
 * (`is_derived`, `srcnode`, `abspath`, `path`) and `fnmatch` are parameters.
 */
module CompilationDb {
  import opened Wrappers

  const DefaultDbName := "compile_commands.json"

  /** A file node of the build graph. */
  datatype FileRef = FileRef(id: nat)

  /** The dictionary the entry action stores on a database node. */
  datatype Entry = Entry(directory: string, command: string, file: FileRef, output: FileRef)

  /** One record of the written database. */
  datatype PathEntry = PathEntry(directory: string, command: string, file: string, output: string)

  /** A construction variable's value, as far as `COMPILATIONDB_USE_ABSPATH` is concerned. */
  datatype EnvValue = Bool(b: bool) | Int(i: int) | Str(s: string) | Other

  /** `changed_since_last_build_node`: the decider of database nodes, which always asks for a rebuild. */
  function ChangedSinceLastBuildNode<C, T, P, N>(child: C, target: T, prevNi: P, node: N): (r: bool)
    ensures r
  {
    true
  }

  /**
   * `compilation_db_emitter`: a lone source names the database when no
   * target does, the default name is used when neither does, and the
   * sources are always dropped.
   */
  function CompilationDbEmitter(target: seq<string>, source: seq<string>): (r: (seq<string>, seq<string>))
    ensures r.1 == []
    ensures r.0 != []
    ensures target != [] ==> r.0 == target
    ensures target == [] && |source| == 1 ==> r.0 == source
    ensures target == [] && |source| != 1 ==> r.0 == [DefaultDbName]
  {
    var t := if target == [] && |source| == 1 then source else target;
    var t' := if t == [] then [DefaultDbName] else t;
    (t', [])
  }

  /** The emitter's output is a fixed point: emitting again changes nothing. */
  lemma EmitterIdempotent(target: seq<string>, source: seq<string>)
    ensures var r := CompilationDbEmitter(target, source);
            CompilationDbEmitter(r.0, r.1) == r
  {
  }

  /** `value in [True, 1, 'True', 'true']` under Python equality, where `True == 1`. */
  function UseAbspath(v: EnvValue): (r: bool)
    ensures r <==> v == Bool(true) || v == Int(1) || v == Str("True") || v == Str("true")
  {
    match v
    case Bool(b) => b
    case Int(i) => i == 1
    case Str(s) => s in ["True", "true"]
    case Other => false
  }

  /**
   * The entry dictionary of `compilation_db_entry_action`; `None` where
   * indexing the first source or the first output raises `IndexError`.
   */
  function EntryOf(directory: string, command: string, usource: seq<FileRef>, uoutput: seq<FileRef>): (r: Option<Entry>)
    ensures r.None? <==> usource == [] || uoutput == []
    ensures r.Some? ==> r.value.file == usource[0] && r.value.output == uoutput[0]
    ensures r.Some? ==> r.value.directory == directory && r.value.command == command
  {
    if usource == [] || uoutput == [] then None
    else Some(Entry(directory, command, usource[0], uoutput[0]))
  }

  /**
   * A `__CompilationDbNode`: a value node created for one compiled object,
   * holding the captured output, source and command string, and, once its
   * entry action has run, the entry. `alwaysBuild` and `noCache` are the
   * marks `env.AlwaysBuild` and `env.NoCache` put on it.
   */
  class DbNode {
    const output: seq<FileRef>
    const source: seq<FileRef>
    const comstr: string
    var value: Option<Entry>
    var alwaysBuild: bool
    var noCache: bool

    constructor(output: seq<FileRef>, source: seq<FileRef>, comstr: string)
      ensures this.output == output && this.source == source && this.comstr == comstr
      ensures value == None
      ensures !alwaysBuild && !noCache
    {
      this.output := output;
      this.source := source;
      this.comstr := comstr;
      value := None;
      alwaysBuild := false;
      noCache := false;
    }

    /**
     * The decider the constructor installs with
     * `self.Decider(changed_since_last_build_node)`: whatever the child and
     * the stored build information, the node counts as changed.
     */
    function Changed<C, T, P>(child: C, target: T, prevNi: P): (r: bool)
      ensures r
    {
      ChangedSinceLastBuildNode(child, target, prevNi, this)
    }

    /**
     * `compilation_db_entry_action`: evaluate the captured command line with
     * `strfunction` and write the entry to the node; `ok` is false where the
     * action raises `IndexError` and nothing is written.
     */
    method EntryAction(directory: string, strfunction: (string, seq<FileRef>, seq<FileRef>) -> string)
      returns (ok: bool)
      modifies this`value
      ensures ok <==> source != [] && output != []
      ensures ok ==> value == EntryOf(directory, strfunction(comstr, output, source), source, output)
      ensures !ok ==> value == old(value)
    {
      var command := strfunction(comstr, output, source);
      var entry := EntryOf(directory, command, source, output);
      ok := entry.Some?;
      if ok {
        value := entry;
      }
    }
  }

  /** The record `write_compilation_db` makes of one entry; `None` where the path filter skips it. */
  function PathEntryOf(e: Entry, useAbspath: bool, pathFilter: string,
                       isDerived: FileRef -> bool, srcnode: FileRef -> FileRef,
                       abspath: FileRef -> string, path: FileRef -> string,
                       fnmatch: (string, string) -> bool): (r: Option<PathEntry>)
    ensures r.Some? ==> r.value.directory == e.directory && r.value.command == e.command
    ensures r.Some? ==> pathFilter == "" || fnmatch(r.value.output, pathFilter)
    ensures pathFilter == "" ==> r.Some?
    ensures r.Some? ==> r.value.output == (if useAbspath then abspath(e.output) else path(e.output))
    ensures r.Some? ==> var src := if isDerived(e.file) then e.file else srcnode(e.file);
                        r.value.file == (if useAbspath then abspath(src) else path(src))
  {
    var src := if isDerived(e.file) then e.file else srcnode(e.file);
    var sourceFile := if useAbspath then abspath(src) else path(src);
    var outputFile := if useAbspath then abspath(e.output) else path(e.output);
    if pathFilter != "" && !fnmatch(outputFile, pathFilter) then None
    else Some(PathEntry(e.directory, e.command, sourceFile, outputFile))
  }

  /** Every node has had its entry action run. */
  predicate AllWritten(nodes: seq<DbNode>)
    reads set k | 0 <= k < |nodes| :: nodes[k]
  {
    forall k :: 0 <= k < |nodes| ==> nodes[k].value.Some?
  }

  /**
   * The records `write_compilation_db` collects from the nodes, in order;
   * `None` when a node still holds no entry, where reading its fields fails.
   */
  function Records(nodes: seq<DbNode>, useAbspath: bool, pathFilter: string,
                   isDerived: FileRef -> bool, srcnode: FileRef -> FileRef,
                   abspath: FileRef -> string, path: FileRef -> string,
                   fnmatch: (string, string) -> bool): Option<seq<PathEntry>>
    reads set k | 0 <= k < |nodes| :: nodes[k]
  {
    if nodes == [] then Some([])
    else
      var init := nodes[..|nodes| - 1];
      var last := nodes[|nodes| - 1];
      match Records(init, useAbspath, pathFilter, isDerived, srcnode, abspath, path, fnmatch)
      case None => None
      case Some(es) =>
        if last.value.None? then None
        else
          match PathEntryOf(last.value.value, useAbspath, pathFilter, isDerived, srcnode, abspath, path, fnmatch)
          case None => Some(es)
          case Some(pe) => Some(es + [pe])
  }

  /** The registry `__COMPILATION_DB_ENTRIES` that the emitters append to and the writer reads. */
  class Registry {
    var entries: seq<DbNode>

    constructor()
      ensures entries == []
    {
      entries := [];
    }

    /**
     * `emit_compilation_db_entry`: create the database node for one object
     * build, mark it to be rebuilt every time and never cached, record it,
     * and hand the object's targets and sources back untouched.
     */
    method EmitCompilationDbEntry(target: seq<FileRef>, source: seq<FileRef>, comstr: string)
      returns (t: seq<FileRef>, s: seq<FileRef>, node: DbNode)
      modifies this`entries
      ensures t == target && s == source
      ensures fresh(node) && node.output == target && node.source == source && node.comstr == comstr
      ensures node.value == None
      ensures node.alwaysBuild && node.noCache
      ensures entries == old(entries) + [node]
    {
      node := new DbNode(target, source, comstr);
      node.alwaysBuild := true;
      node.noCache := true;
      entries := entries + [node];
      t, s := target, source;
    }

    /**
     * `write_compilation_db`: the records, in registry order, that go into
     * the JSON file; `None` where a node holds no entry.
     */
    method WriteCompilationDb(useAbspathValue: EnvValue, pathFilter: string,
                              isDerived: FileRef -> bool, srcnode: FileRef -> FileRef,
                              abspath: FileRef -> string, path: FileRef -> string,
                              fnmatch: (string, string) -> bool)
      returns (r: Option<seq<PathEntry>>)
      ensures r == Records(entries, UseAbspath(useAbspathValue), pathFilter, isDerived, srcnode, abspath, path, fnmatch)
    {
      var useAbspath := UseAbspath(useAbspathValue);
      var es: seq<PathEntry> := [];
      var i := 0;
      while i < |entries|
        invariant 0 <= i <= |entries|
        invariant Records(entries[..i], useAbspath, pathFilter, isDerived, srcnode, abspath, path, fnmatch) == Some(es)
      {
        var node := entries[i];
        assert entries[..i + 1][..i] == entries[..i];
        if node.value.None? {
          r := None;
          NoneStaysNone(entries, i + 1, useAbspath, pathFilter, isDerived, srcnode, abspath, path, fnmatch);
          return;
        }
        var pe := PathEntryOf(node.value.value, useAbspath, pathFilter, isDerived, srcnode, abspath, path, fnmatch);
        if pe.None? {
          i := i + 1;
          continue;
        }
        es := es + [pe.value];
        i := i + 1;
      }
      assert entries[..i] == entries;
      r := Some(es);
    }
  }

  /** A node without an entry spoils every longer prefix too. */
  lemma {:induction false} NoneStaysNone(nodes: seq<DbNode>, n: nat, useAbspath: bool, pathFilter: string,
                                         isDerived: FileRef -> bool, srcnode: FileRef -> FileRef,
                                         abspath: FileRef -> string, path: FileRef -> string,
                                         fnmatch: (string, string) -> bool)
    requires n <= |nodes|
    requires Records(nodes[..n], useAbspath, pathFilter, isDerived, srcnode, abspath, path, fnmatch) == None
    ensures Records(nodes, useAbspath, pathFilter, isDerived, srcnode, abspath, path, fnmatch) == None
    decreases |nodes| - n
  {
    if n < |nodes| {
      assert nodes[..n + 1][..n] == nodes[..n];
      NoneStaysNone(nodes, n + 1, useAbspath, pathFilter, isDerived, srcnode, abspath, path, fnmatch);
    } else {
      assert nodes[..n] == nodes;
    }
  }

  /**
   * Once every node holds an entry, the writer succeeds with at most one
   * record per node, with exactly one per node when no path filter is set,
   * and every record it keeps matches the filter.
   */
  lemma {:induction false} RecordsOfWritten(nodes: seq<DbNode>, useAbspath: bool, pathFilter: string,
                                            isDerived: FileRef -> bool, srcnode: FileRef -> FileRef,
                                            abspath: FileRef -> string, path: FileRef -> string,
                                            fnmatch: (string, string) -> bool)
    requires AllWritten(nodes)
    ensures var r := Records(nodes, useAbspath, pathFilter, isDerived, srcnode, abspath, path, fnmatch);
            && r.Some?
            && |r.value| <= |nodes|
            && (pathFilter == "" ==> |r.value| == |nodes|)
            && (pathFilter != "" ==> forall k :: 0 <= k < |r.value| ==> fnmatch(r.value[k].output, pathFilter))
  {
    if nodes != [] {
      var init := nodes[..|nodes| - 1];
      assert AllWritten(init) by {
        forall k | 0 <= k < |init| ensures init[k].value.Some? {
          assert init[k] == nodes[k];
        }
      }
      RecordsOfWritten(init, useAbspath, pathFilter, isDerived, srcnode, abspath, path, fnmatch);
    }
  }

  /**
   * Records of a concatenation are the concatenated records: the writer
   * handles nodes one at a time and keeps their order.
   */
  lemma {:induction false} RecordsAppend(a: seq<DbNode>, b: seq<DbNode>, useAbspath: bool, pathFilter: string,
                                         isDerived: FileRef -> bool, srcnode: FileRef -> FileRef,
                                         abspath: FileRef -> string, path: FileRef -> string,
                                         fnmatch: (string, string) -> bool)
    requires AllWritten(a) && AllWritten(b)
    ensures Records(a, useAbspath, pathFilter, isDerived, srcnode, abspath, path, fnmatch).Some?
    ensures Records(b, useAbspath, pathFilter, isDerived, srcnode, abspath, path, fnmatch).Some?
    ensures Records(a + b, useAbspath, pathFilter, isDerived, srcnode, abspath, path, fnmatch).Some?
    ensures Records(a + b, useAbspath, pathFilter, isDerived, srcnode, abspath, path, fnmatch).value ==
            Records(a, useAbspath, pathFilter, isDerived, srcnode, abspath, path, fnmatch).value +
            Records(b, useAbspath, pathFilter, isDerived, srcnode, abspath, path, fnmatch).value
    decreases |b|
  {
    RecordsOfWritten(a, useAbspath, pathFilter, isDerived, srcnode, abspath, path, fnmatch);
    RecordsOfWritten(b, useAbspath, pathFilter, isDerived, srcnode, abspath, path, fnmatch);
    assert AllWritten(a + b) by {
      forall k | 0 <= k < |a + b| ensures (a + b)[k].value.Some? {
        if k < |a| { assert (a + b)[k] == a[k]; } else { assert (a + b)[k] == b[k - |a|]; }
      }
    }
    RecordsOfWritten(a + b, useAbspath, pathFilter, isDerived, srcnode, abspath, path, fnmatch);
    if b == [] {
      assert a + b == a;
    } else {
      var binit := b[..|b| - 1];
      assert AllWritten(binit) by {
        forall k | 0 <= k < |binit| ensures binit[k].value.Some? {
          assert binit[k] == b[k];
        }
      }
      RecordsAppend(a, binit, useAbspath, pathFilter, isDerived, srcnode, abspath, path, fnmatch);
      assert (a + b)[..|a + b| - 1] == a + binit;
      assert (a + b)[|a + b| - 1] == b[|b| - 1];
    }
  }

  /** A record survives exactly when no filter is set or its output path matches the filter. */
  lemma RecordKeptIffMatches(e: Entry, useAbspath: bool, pathFilter: string,
                             isDerived: FileRef -> bool, srcnode: FileRef -> FileRef,
                             abspath: FileRef -> string, path: FileRef -> string,
                             fnmatch: (string, string) -> bool)
    ensures var out := if useAbspath then abspath(e.output) else path(e.output);
            PathEntryOf(e, useAbspath, pathFilter, isDerived, srcnode, abspath, path, fnmatch).Some? <==>
            (pathFilter == "" || fnmatch(out, pathFilter))
  {
  }
}

=== FILE: docbook.dfy ===
/**
 * The list-, path- and string-shaping helpers of the DocBook tool
 * (`SCons.Tool.docbook`): target/source normalisation, suffix handling,
 * output-directory choice, command-line tool detection and the base-dir
 * emitter. `WhereIs`, `os.path.isdir` and `$base_dir` substitution are
 * parameters; a construction environment is a `map` from variable names to
 * string values, where `""` is the unset or false value.
 */
module Docbook {
  import opened Wrappers
  import opened PyText
  import opened PyList
  import PosixPath

  /* ---------------------------------------------------------------- */
  /* Targets and sources                                               */
  /* ---------------------------------------------------------------- */

  /** A target or source argument: a single name or a list of names. */
  datatype Files = One(name: string) | Several(names: seq<string>)

  function AsList(f: Files): (r: seq<string>)
  {
    match f
    case One(x) => [x]
    case Several(xs) => xs
  }

  /** `not source`: `None`, an empty name or an empty list. */
  predicate Falsy(source: Option<Files>) {
    match source
    case None => true
    case Some(One(x)) => x == ""
    case Some(Several(xs)) => xs == []
  }

  /**
   * `__extend_targets_sources`: wrap single names in lists, let a missing
   * source default to a copy of the targets, then pad the targets with the
   * sources that have no target of their own.
   */
  method ExtendTargetsSources(target: Files, source: Option<Files>) returns (t: seq<string>, s: seq<string>)
    ensures s == if Falsy(source) then AsList(target) else AsList(source.value)
    ensures |t| >= |s| && |t| >= |AsList(target)|
    ensures t[..|AsList(target)|] == AsList(target)
    ensures t[|AsList(target)|..] == if |AsList(target)| < |s| then s[|AsList(target)|..] else []
  {
    t := AsList(target);
    if Falsy(source) {
      s := t;
    } else {
      s := AsList(source.value);
    }
    if |t| < |s| {
      t := t + s[|t|..];
    }
  }

  /** After padding, every source without an original target is its own target, so `zip` pairs each source. */
  lemma ExtendedTargetsPairSources(target: Files, t: seq<string>, s: seq<string>, k: nat)
    requires |t| >= |s| && |t| >= |AsList(target)|
    requires t[..|AsList(target)|] == AsList(target)
    requires t[|AsList(target)|..] == if |AsList(target)| < |s| then s[|AsList(target)|..] else []
    requires k < |s|
    ensures k < |AsList(target)| ==> t[k] == AsList(target)[k]
    ensures k >= |AsList(target)| ==> t[k] == s[k]
  {
    var n := |AsList(target)|;
    if k < n {
      assert t[..n][k] == t[k];
    } else {
      assert t[n..][k - n] == t[k];
      assert s[n..][k - n] == s[k];
    }
  }

  /** `__select_builder`: the lxml builder when lxml is there and xsltproc is not preferred. */
  function SelectBuilder<B>(hasLxml: bool, preferXsltproc: bool, lxmlBuilder: B, cmdlineBuilder: B): (r: B)
    ensures hasLxml && !preferXsltproc ==> r == lxmlBuilder
    ensures !(hasLxml && !preferXsltproc) ==> r == cmdlineBuilder
  {
    if hasLxml && !preferXsltproc then lxmlBuilder else cmdlineBuilder
  }

  /* ---------------------------------------------------------------- */
  /* Suffixes                                                          */
  /* ---------------------------------------------------------------- */

  /** `__ensure_suffix`: the name itself when it already ends with the suffix, else the name plus the suffix. */
  function EnsureSuffix(t: string, suffix: string): (r: string)
    ensures EndsWith(r, suffix)
    ensures EndsWith(t, suffix) ==> r == t
    ensures !EndsWith(t, suffix) ==> r == t + suffix
  {
    if !EndsWith(t, suffix) then
      assert (t + suffix)[|t + suffix| - |suffix|..] == suffix;
      t + suffix
    else t
  }

  /** Ensuring a suffix twice is ensuring it once. */
  lemma EnsureSuffixIdempotent(t: string, suffix: string)
    ensures EnsureSuffix(EnsureSuffix(t, suffix), suffix) == EnsureSuffix(t, suffix)
  {
  }

  /**
   * `__ensure_suffix_stem`: the name with the suffix ensured, and its stem:
   * the original name when the suffix had to be added, otherwise the name
   * with its last extension split off by `os.path.splitext`.
   */
  function EnsureSuffixStem(t: string, suffix: string): (r: (string, string))
    ensures EndsWith(r.0, suffix)
    ensures StartsWith(r.0, r.1)
    ensures !EndsWith(t, suffix) ==> r == (t + suffix, t)
    ensures EndsWith(t, suffix) ==> r.0 == t && r.1 + PosixPath.SplitExt(t).1 == t
  {
    if !EndsWith(t, suffix) then
      assert (t + suffix)[|t + suffix| - |suffix|..] == suffix;
      assert (t + suffix)[..|t|] == t;
      (t + suffix, t)
    else
      PosixPath.SplitExtParts(t);
      var stem := PosixPath.SplitExt(t).0;
      assert t[..|stem|] == stem;
      (t, stem)
  }

  /** A dot-led suffix such as `.pdf`: a dot, then no further dot or slash. */
  predicate SimpleExtension(suffix: string) {
    |suffix| >= 1 && suffix[0] == '.' && forall k :: 1 <= k < |suffix| ==> suffix[k] != '.' && suffix[k] != '/'
  }

  /**
   * When the name already carries a simple extension and its final component
   * has something other than dots in front of it, the stem is the name
   * without that extension.
   */
  lemma {:induction false} StemDropsExtension(stem: string, suffix: string)
    requires SimpleExtension(suffix)
    requires PosixPath.HasNonDot(stem, PosixPath.RFind(stem, '/') + 1, |stem|)
    ensures PosixPath.SplitExt(stem + suffix) == (stem, suffix)
  {
    var t := stem + suffix;
    var d := |stem|;
    assert t[..d] == stem && t[d..] == suffix;
    assert EndsWith(t, suffix);
    assert t[d] == '.';
    forall k | d < k < |t| ensures t[k] != '.' && t[k] != '/' {
      assert t[k] == suffix[k - d];
    }
    PosixPath.RFindUnique(t, '.', d);
    var sep := PosixPath.RFind(stem, '/');
    forall k | sep < k < |t| ensures t[k] != '/' {
      if k < d {
        assert t[k] == stem[k];
      }
    }
    PosixPath.RFindUnique(t, '/', sep);
    assert PosixPath.HasNonDot(t, sep + 1, d) by {
      var k :| sep + 1 <= k < d && stem[k] != '.';
      assert t[k] == stem[k];
    }
    assert PosixPath.SplitExt(t) == (stem, suffix);
  }

  /** So `__ensure_suffix_stem` on such a name returns the name and the stem it was built from. */
  lemma {:induction false} EnsureSuffixStemOfExtended(stem: string, suffix: string)
    requires SimpleExtension(suffix)
    requires PosixPath.HasNonDot(stem, PosixPath.RFind(stem, '/') + 1, |stem|)
    ensures EnsureSuffixStem(stem + suffix, suffix) == (stem + suffix, stem)
  {
    StemDropsExtension(stem, suffix);
    assert EndsWith(stem + suffix, suffix) by {
      assert (stem + suffix)[|stem|..] == suffix;
    }
  }

  /** A hidden file name is all stem: `.pdf` with suffix `.pdf` keeps `.pdf` as its stem. */
  lemma HiddenNameStem()
    ensures EnsureSuffixStem(".pdf", ".pdf") == (".pdf", ".pdf")
  {
    var t := ".pdf";
    assert EndsWith(t, ".pdf");
    assert PosixPath.RFind(t, '/') == -1;
    assert t[0] == '.' && t[1] != '.' && t[2] != '.' && t[3] != '.';
    assert PosixPath.RFind(t, '.') == 0;
    assert !PosixPath.HasNonDot(t, 0, 0);
  }

  /* ---------------------------------------------------------------- */
  /* Output directory                                                  */
  /* ---------------------------------------------------------------- */

  /**
   * `__create_output_dir`: `chosen` is the directory the function settles
   * on, and `created` the one it hands to `os.makedirs`, if any.
   */
  method CreateOutputDir(baseDir: string, isDir: string -> bool) returns (chosen: Option<string>, created: Option<string>)
    ensures EndsWith(baseDir, "/") ==> chosen == Some(baseDir)
    ensures baseDir != "" && !EndsWith(baseDir, "/") ==> chosen == Some(PosixPath.Split(baseDir).0)
    ensures baseDir == "" ==> chosen == None
    ensures created == if chosen.Some? && chosen.value != "" && !isDir(chosen.value) then chosen else None
  {
    PosixPath.EmptyTail(baseDir);
    var parts := PosixPath.Split(baseDir);
    var root, tail := parts.0, parts.1;
    chosen := None;
    if tail != "" {
      if EndsWith(baseDir, "/") {
        chosen := Some(baseDir);
      } else {
        chosen := Some(root);
      }
    } else {
      if EndsWith(baseDir, "/") {
        chosen := Some(baseDir);
      }
    }
    created := None;
    if chosen.Some? && chosen.value != "" && !isDir(chosen.value) {
      created := chosen;
    }
  }

  /* ---------------------------------------------------------------- */
  /* Command-line tool detection                                       */
  /* ---------------------------------------------------------------- */

  const XsltprocComPriority: seq<string> := ["xsltproc", "saxon", "saxon-xslt", "xalan"]

  /** The tool tables, as `(tool, command line)` pairs in dictionary order. */
  const XsltprocCom: seq<(string, string)> := [
    ("xsltproc", "$DOCBOOK_XSLTPROC $DOCBOOK_XSLTPROCFLAGS -o $TARGET $DOCBOOK_XSL $SOURCE"),
    ("saxon", "$DOCBOOK_XSLTPROC $DOCBOOK_XSLTPROCFLAGS -o $TARGET $DOCBOOK_XSL $SOURCE $DOCBOOK_XSLTPROCPARAMS"),
    ("saxon-xslt", "$DOCBOOK_XSLTPROC $DOCBOOK_XSLTPROCFLAGS -o $TARGET $DOCBOOK_XSL $SOURCE $DOCBOOK_XSLTPROCPARAMS"),
    ("xalan", "$DOCBOOK_XSLTPROC $DOCBOOK_XSLTPROCFLAGS -q -out $TARGET -xsl $DOCBOOK_XSL -in $SOURCE")
  ]

  const XmllintCom: seq<(string, string)> := [
    ("xmllint", "$DOCBOOK_XMLLINT $DOCBOOK_XMLLINTFLAGS --xinclude $SOURCE > $TARGET")
  ]

  const FopCom: seq<(string, string)> := [
    ("fop", "$DOCBOOK_FOP $DOCBOOK_FOPFLAGS -fo $SOURCE -pdf $TARGET"),
    ("xep", "$DOCBOOK_FOP $DOCBOOK_FOPFLAGS -valid -fo $SOURCE -pdf $TARGET"),
    ("jw", "$DOCBOOK_FOP $DOCBOOK_FOPFLAGS -f docbook -b pdf $SOURCE -o $TARGET")
  ]

  const FopPriority: seq<string> := ["fop", "xep", "jw"]

  /** `env.get(k, '')`. */
  function Get(env: map<string, string>, k: string): string
  {
    if k in env then env[k] else ""
  }

  /** `cdict.keys()`, in order. */
  function Keys(cdict: seq<(string, string)>): (r: seq<string>)
    ensures |r| == |cdict|
    ensures forall k :: 0 <= k < |r| ==> r[k] == cdict[k].0
  {
    seq(|cdict|, k requires 0 <= k < |cdict| => cdict[k].0)
  }

  /** `cdict[tool]`, `None` where it raises `KeyError`. */
  function LookupTool(cdict: seq<(string, string)>, tool: string): (r: Option<string>)
    ensures r.None? <==> tool !in Keys(cdict)
    ensures r.Some? ==> r.value == cdict[IndexOf(Keys(cdict), tool)].1
  {
    if cdict == [] then None
    else if cdict[0].0 == tool then Some(cdict[0].1)
    else
      var keys, rest := Keys(cdict), Keys(cdict[1..]);
      assert keys[1..] == rest;
      assert tool in keys <==> tool in rest by {
        assert keys == [cdict[0].0] + rest;
      }
      assert IndexOf(keys, tool) == 1 + IndexOf(rest, tool);
      LookupTool(cdict[1..], tool)
  }

  /** The tools to try: the given priority list, or the table's keys. */
  function Priority(cdict: seq<(string, string)>, cpriority: Option<seq<string>>): seq<string>
  {
    if cpriority.None? then Keys(cdict) else cpriority.value
  }

  /** Index of the first tool `WhereIs` finds, or `|prio|`. */
  function FirstFound(prio: seq<string>, whereIs: string -> string): (n: nat)
    ensures n <= |prio|
    ensures forall k :: 0 <= k < n ==> whereIs(prio[k]) == ""
    ensures n < |prio| ==> whereIs(prio[n]) != ""
  {
    if prio == [] then 0
    else if whereIs(prio[0]) != "" then 0
    else 1 + FirstFound(prio[1..], whereIs)
  }

  /** The environment after detection, and the key whose lookup raised `KeyError`, if one did. */
  datatype Detection = Detection(env: map<string, string>, missing: Option<string>)

  /** What `__detect_cl_tool` does to the environment. */
  function ClTool(env: map<string, string>, chainkey: string, cdict: seq<(string, string)>,
                  prio: seq<string>, whereIs: string -> string): Detection
  {
    if Get(env, chainkey) != "" then Detection(env, None)
    else
      var n := FirstFound(prio, whereIs);
      if n == |prio| then Detection(env, None)
      else
        var tool := prio[n];
        var env1 := env[chainkey := whereIs(tool)];
        var comKey := chainkey + "COM";
        if comKey !in env1 then Detection(env1, Some(comKey))
        else if env1[comKey] != "" then Detection(env1, None)
        else
          match LookupTool(cdict, tool)
          case None => Detection(env1, Some(tool))
          case Some(command) => Detection(env1[comKey := command], None)
  }

  /**
   * `__detect_cl_tool`: unless `env[chainkey]` is already set, try the
   * tools in priority order and stop at the first one `WhereIs` finds.
   */
  method DetectClTool(env: map<string, string>, chainkey: string, cdict: seq<(string, string)>,
                      cpriority: Option<seq<string>>, whereIs: string -> string) returns (r: Detection)
    ensures r == ClTool(env, chainkey, cdict, Priority(cdict, cpriority), whereIs)
  {
    r := Detection(env, None);
    if Get(env, chainkey) == "" {
      var prio := if cpriority.None? then Keys(cdict) else cpriority.value;
      var i := 0;
      while i < |prio|
        invariant 0 <= i <= |prio|
        invariant forall k :: 0 <= k < i ==> whereIs(prio[k]) == ""
        invariant r == Detection(env, None)
      {
        var clpath := whereIs(prio[i]);
        if clpath != "" {
          assert FirstFound(prio, whereIs) == i by {
            FirstFoundIs(prio, whereIs, i);
          }
          var env1 := r.env[chainkey := clpath];
          var comKey := chainkey + "COM";
          if comKey !in env1 {
            return Detection(env1, Some(comKey));
          }
          if env1[comKey] == "" {
            match LookupTool(cdict, prio[i])
            case None =>
              return Detection(env1, Some(prio[i]));
            case Some(command) =>
              env1 := env1[comKey := command];
          }
          return Detection(env1, None);
        }
        i := i + 1;
      }
      FirstFoundIs(prio, whereIs, |prio|);
    }
  }

  lemma {:induction false} FirstFoundIs(prio: seq<string>, whereIs: string -> string, i: nat)
    requires i <= |prio|
    requires forall k :: 0 <= k < i ==> whereIs(prio[k]) == ""
    requires i < |prio| ==> whereIs(prio[i]) != ""
    ensures FirstFound(prio, whereIs) == i
  {
  }

  /** Detection touches only `chainkey` and `chainkey + 'COM'`; every other variable keeps its value. */
  lemma ClToolTouchesTwoKeys(env: map<string, string>, chainkey: string, cdict: seq<(string, string)>,
                             prio: seq<string>, whereIs: string -> string, k: string)
    requires k != chainkey && k != chainkey + "COM"
    ensures Get(ClTool(env, chainkey, cdict, prio, whereIs).env, k) == Get(env, k)
  {
  }

  /** A set `chainkey` suppresses detection; otherwise it becomes the path of the first tool found. */
  lemma ClToolPicksFirstFound(env: map<string, string>, chainkey: string, cdict: seq<(string, string)>,
                              prio: seq<string>, whereIs: string -> string)
    ensures Get(env, chainkey) != "" ==> ClTool(env, chainkey, cdict, prio, whereIs) == Detection(env, None)
    ensures Get(env, chainkey) == "" && FirstFound(prio, whereIs) == |prio| ==>
              ClTool(env, chainkey, cdict, prio, whereIs) == Detection(env, None)
    ensures Get(env, chainkey) == "" && FirstFound(prio, whereIs) < |prio| ==>
              Get(ClTool(env, chainkey, cdict, prio, whereIs).env, chainkey) == whereIs(prio[FirstFound(prio, whereIs)])
  {
    assert chainkey != chainkey + "COM" by { assert |chainkey| != |chainkey + "COM"|; }
  }

  /**
   * When detection runs and finds a tool, an empty `chainkey + 'COM'` is
   * filled with that tool's command line from the table; a missing
   * `chainkey + 'COM'` or a tool without an entry is a `KeyError`.
   */
  lemma ClToolFillsCommand(env: map<string, string>, chainkey: string, cdict: seq<(string, string)>,
                           prio: seq<string>, whereIs: string -> string)
    requires Get(env, chainkey) == "" && FirstFound(prio, whereIs) < |prio|
    ensures var tool, r := prio[FirstFound(prio, whereIs)], ClTool(env, chainkey, cdict, prio, whereIs);
            && (chainkey + "COM" !in env ==> r.missing == Some(chainkey + "COM"))
            && (chainkey + "COM" in env && env[chainkey + "COM"] == "" && tool !in Keys(cdict) ==>
                  r.missing == Some(tool))
            && (chainkey + "COM" in env && env[chainkey + "COM"] == "" && tool in Keys(cdict) ==>
                  r.missing == None && r.env[chainkey + "COM"] == cdict[IndexOf(Keys(cdict), tool)].1)
  {
    assert chainkey != chainkey + "COM" by { assert |chainkey| != |chainkey + "COM"|; }
  }

  /** A command line that is already set is never replaced by the table's. */
  lemma ClToolKeepsSetCommand(env: map<string, string>, chainkey: string, cdict: seq<(string, string)>,
                              prio: seq<string>, whereIs: string -> string)
    requires Get(env, chainkey + "COM") != ""
    ensures Get(ClTool(env, chainkey, cdict, prio, whereIs).env, chainkey + "COM") == Get(env, chainkey + "COM")
    ensures ClTool(env, chainkey, cdict, prio, whereIs).missing == None
  {
    assert chainkey != chainkey + "COM" by { assert |chainkey| != |chainkey + "COM"|; }
  }

  /**
   * Where `generate()` has already put xsltproc's command line into
   * `DOCBOOK_XSLTPROCCOM`, finding only xalan keeps that command line: the
   * xalan entry of the table is never used.
   */
  lemma PrefilledCommandSurvives(env: map<string, string>, whereIs: string -> string)
    requires Get(env, "DOCBOOK_XSLTPROC") == ""
    requires Get(env, "DOCBOOK_XSLTPROCCOM") == XsltprocCom[0].1
    requires whereIs("xsltproc") == "" && whereIs("saxon") == "" && whereIs("saxon-xslt") == ""
    requires whereIs("xalan") != ""
    ensures var r := ClTool(env, "DOCBOOK_XSLTPROC", XsltprocCom, XsltprocComPriority, whereIs);
            && Get(r.env, "DOCBOOK_XSLTPROC") == whereIs("xalan")
            && Get(r.env, "DOCBOOK_XSLTPROCCOM") == XsltprocCom[0].1
            && Get(r.env, "DOCBOOK_XSLTPROCCOM") != XsltprocCom[3].1
  {
    assert "DOCBOOK_XSLTPROC" + "COM" == "DOCBOOK_XSLTPROCCOM";
    FirstFoundIs(XsltprocComPriority, whereIs, 3);
    ClToolPicksFirstFound(env, "DOCBOOK_XSLTPROC", XsltprocCom, XsltprocComPriority, whereIs);
    ClToolKeepsSetCommand(env, "DOCBOOK_XSLTPROC", XsltprocCom, XsltprocComPriority, whereIs);
    assert |XsltprocCom[0].1| != |XsltprocCom[3].1|;
  }

  /** What `_detect` does: the xslt and xmllint tools only without lxml or when xsltproc is preferred, then the fo processor. */
  function DetectAll(env: map<string, string>, hasLxml: bool, prefer: bool, whereIs: string -> string): Detection
  {
    var d := if !hasLxml || prefer then
               var d1 := ClTool(env, "DOCBOOK_XSLTPROC", XsltprocCom, XsltprocComPriority, whereIs);
               if d1.missing.Some? then d1 else ClTool(d1.env, "DOCBOOK_XMLLINT", XmllintCom, Keys(XmllintCom), whereIs)
             else Detection(env, None);
    if d.missing.Some? then d else ClTool(d.env, "DOCBOOK_FOP", FopCom, FopPriority, whereIs)
  }

  /**
   * `_detect(env)`: a set `DOCBOOK_PREFER_XSLTPROC` turns the module-wide
   * preference on for good, then the tools are detected; a `KeyError` stops
   * the sequence.
   */
  method Detect(env: map<string, string>, hasLxml: bool, preferXsltproc: bool, whereIs: string -> string)
    returns (r: Detection, prefer: bool)
    ensures prefer == (preferXsltproc || Get(env, "DOCBOOK_PREFER_XSLTPROC") != "")
    ensures r == DetectAll(env, hasLxml, prefer, whereIs)
  {
    prefer := preferXsltproc;
    if Get(env, "DOCBOOK_PREFER_XSLTPROC") != "" {
      prefer := true;
    }
    r := Detection(env, None);
    if !hasLxml || prefer {
      r := DetectClTool(r.env, "DOCBOOK_XSLTPROC", XsltprocCom, Some(XsltprocComPriority), whereIs);
      if r.missing.Some? {
        return;
      }
      r := DetectClTool(r.env, "DOCBOOK_XMLLINT", XmllintCom, None, whereIs);
      if r.missing.Some? {
        return;
      }
    }
    r := DetectClTool(r.env, "DOCBOOK_FOP", FopCom, Some(FopPriority), whereIs);
  }

  /** With lxml present and xsltproc not preferred, only the fo processor variables can change. */
  lemma DetectWithLxmlOnlyFop(env: map<string, string>, whereIs: string -> string, k: string)
    requires k != "DOCBOOK_FOP" && k != "DOCBOOK_FOPCOM"
    ensures Get(DetectAll(env, true, false, whereIs).env, k) == Get(env, k)
  {
    ClToolTouchesTwoKeys(env, "DOCBOOK_FOP", FopCom, FopPriority, whereIs, k);
  }

  /* ---------------------------------------------------------------- */
  /* Stylesheet and emitter                                            */
  /* ---------------------------------------------------------------- */

  const DbXslFolder := "docbook-xsl-1.76.1"

  /**
   * `__init_xsl_stylesheet`: unless the keywords already name a stylesheet,
   * take the `xsl` keyword, else the substituted user variable, else the
   * bundled stylesheet under the script's directory.
   */
  function InitXslStylesheet(kw: map<string, string>, userXsl: string, scriptPath: string,
                             defaultPath: seq<string>): (r: map<string, string>)
    ensures Get(kw, "DOCBOOK_XSL") != "" ==> r == kw
    ensures Get(kw, "DOCBOOK_XSL") == "" && "xsl" in kw && kw["xsl"] != "" ==> r == kw["DOCBOOK_XSL" := kw["xsl"]]
    ensures Get(kw, "DOCBOOK_XSL") == "" && "xsl" !in kw && userXsl != "" ==> r == kw["DOCBOOK_XSL" := userXsl]
    ensures Get(kw, "DOCBOOK_XSL") == "" && (if "xsl" in kw then kw["xsl"] else userXsl) == "" ==>
              r == kw["DOCBOOK_XSL" := PosixPath.JoinAll([scriptPath, DbXslFolder] + defaultPath)]
    ensures Get(r, "DOCBOOK_XSL") != ""
    ensures forall k :: k != "DOCBOOK_XSL" ==> Get(r, k) == Get(kw, k)
  {
    if Get(kw, "DOCBOOK_XSL") == "" then
      var xslStyle := if "xsl" in kw then kw["xsl"] else userXsl;
      var chosen := if xslStyle == "" then PosixPath.JoinAll([scriptPath, DbXslFolder] + defaultPath) else xslStyle;
      JoinAllNonEmpty([scriptPath, DbXslFolder] + defaultPath, 1);
      kw["DOCBOOK_XSL" := chosen]
    else kw
  }

  /** Joining paths one of which is non-empty gives a non-empty path. */
  lemma {:induction false} JoinAllNonEmpty(parts: seq<string>, i: nat)
    requires i < |parts| && parts[i] != ""
    ensures PosixPath.JoinAll(parts) != ""
    decreases |parts|
  {
    if |parts| > 1 {
      var last := parts[|parts| - 1];
      if i < |parts| - 1 {
        JoinAllNonEmpty(parts[..|parts| - 1], i);
      }
    }
  }

  /**
   * `__emit_xsl_basedir`: with a `$base_dir`, every target is joined onto
   * it, in order; without one, targets and sources pass through.
   */
  function EmitXslBasedir<S>(target: seq<string>, source: S, baseDir: string): (r: (seq<string>, S))
    ensures r.1 == source
    ensures |r.0| == |target|
    ensures baseDir == "" ==> r.0 == target
    ensures baseDir != "" ==> forall k :: 0 <= k < |target| ==> r.0[k] == PosixPath.Join(baseDir, target[k])
  {
    if baseDir != "" then
      (seq(|target|, k requires 0 <= k < |target| => PosixPath.Join(baseDir, target[k])), source)
    else (target, source)
  }

  /** A plain file name emitted under a base directory splits back into that directory and that name. */
  lemma EmittedTargetInBaseDir<S>(target: seq<string>, source: S, baseDir: string, k: nat)
    requires k < |target|
    requires baseDir != "" && baseDir[|baseDir| - 1] != '/'
    requires target[k] != "" && '/' !in target[k]
    ensures PosixPath.Split(EmitXslBasedir(target, source, baseDir).0[k]) == (baseDir, target[k])
  {
    PosixPath.SplitJoin(baseDir, target[k]);
  }
}

=== FILE: posix_path.dfy ===
/**
 * Python's `posixpath.split`, `posixpath.join` and `posixpath.splitext`
 * (separator `/`, extension separator `.`), as string functions.
 */
module PosixPath {
  import opened PyText

  /** `s.rfind(c)`: the last position of `c`, or -1. */
  function RFind(s: string, c: char): (i: int)
    ensures -1 <= i < |s|
    ensures i >= 0 ==> s[i] == c
    ensures forall k :: i < k < |s| ==> s[k] != c
  {
    if s == [] then -1
    else if s[|s| - 1] == c then |s| - 1
    else RFind(s[..|s| - 1], c)
  }

  /** The last occurrence is the one index with `c` there and nowhere after. */
  lemma RFindUnique(s: string, c: char, i: int)
    requires -1 <= i < |s|
    requires i >= 0 ==> s[i] == c
    requires forall k :: i < k < |s| ==> s[k] != c
    ensures RFind(s, c) == i
  {
  }

  predicate AllSlashes(s: string) {
    forall k :: 0 <= k < |s| ==> s[k] == '/'
  }

  /** `s.rstrip('/')`. */
  function RStripSlashes(s: string): (r: string)
    ensures StartsWith(s, r)
    ensures r == [] || r[|r| - 1] != '/'
    ensures AllSlashes(s[|r|..])
  {
    if s == [] || s[|s| - 1] != '/' then s
    else
      var r := RStripSlashes(s[..|s| - 1]);
      assert s[..|r|] == s[..|s| - 1][..|r|];
      assert s[|r|..] == s[..|s| - 1][|r|..] + ['/'];
      r
  }

  /**
   * `posixpath.split(p)`: the tail is everything after the last `/`, the head
   * everything before it, with trailing slashes dropped unless the head is
   * made only of slashes.
   */
  function Split(p: string): (r: (string, string))
  {
    var i := RFind(p, '/') + 1;
    var head, tail := p[..i], p[i..];
    if head != [] && !AllSlashes(head) then (RStripSlashes(head), tail) else (head, tail)
  }

  /** What `posixpath.split` promises: a slash-free tail that ends the path, a head that starts it. */
  lemma SplitParts(p: string)
    ensures '/' !in Split(p).1
    ensures EndsWith(p, Split(p).1)
    ensures StartsWith(p, Split(p).0)
    ensures |Split(p).0| + |Split(p).1| <= |p|
    ensures '/' !in p ==> Split(p) == ("", p)
    ensures EndsWith(p, "/") ==> Split(p).1 == ""
    ensures Split(p).1 == "" <==> p == "" || EndsWith(p, "/")
  {
    var i := RFind(p, '/') + 1;
    assert p[..i] + p[i..] == p;
    if '/' !in p {
      assert i == 0;
    }
    if EndsWith(p, "/") {
      assert p[|p| - 1] == '/';
    }
  }

  /** The tail of `posixpath.split` is empty exactly for the empty path and for paths ending in `/`. */
  lemma EmptyTail(p: string)
    ensures Split(p).1 == "" <==> p == "" || EndsWith(p, "/")
  {
    SplitParts(p);
  }

  /** `posixpath.join(a, b)`. */
  function Join(a: string, b: string): string
  {
    if StartsWith(b, "/") then b
    else if a == "" || EndsWith(a, "/") then a + b
    else a + "/" + b
  }

  /** `posixpath.join(*parts)` for at least one part. */
  function JoinAll(parts: seq<string>): string
    requires |parts| >= 1
    decreases |parts|
  {
    if |parts| == 1 then parts[0]
    else Join(JoinAll(parts[..|parts| - 1]), parts[|parts| - 1])
  }

  /** A relative name joined onto a directory keeps the directory in front and the name at the end. */
  lemma JoinRelative(a: string, b: string)
    requires !StartsWith(b, "/")
    ensures StartsWith(Join(a, b), a)
    ensures EndsWith(Join(a, b), b)
  {
    var j := Join(a, b);
    if a == "" || EndsWith(a, "/") {
      assert j == a + b;
      assert j[..|a|] == a;
      assert j[|j| - |b|..] == b;
    } else {
      assert j == a + ("/" + b);
      assert j[..|a|] == a;
      assert j[|j| - |b|..] == b;
    }
  }

  /** Splitting a joined directory and file name gives back the two. */
  lemma {:induction false} SplitJoin(a: string, b: string)
    requires b != "" && '/' !in b
    requires a == "" || a[|a| - 1] != '/'
    ensures Split(Join(a, b)) == (a, b)
  {
    assert !StartsWith(b, "/") by { assert b[0] != '/'; }
    var j := Join(a, b);
    if a == "" {
      assert j == b;
      SplitParts(j);
    } else {
      assert !EndsWith(a, "/");
      assert j == a + "/" + b;
      assert j[|a|] == '/';
      assert forall k :: |a| < k < |j| ==> j[k] == b[k - |a| - 1];
      var i := RFind(j, '/');
      assert i == |a|;
      assert j[..i + 1] == a + "/";
      assert j[i + 1..] == b;
      assert !AllSlashes(a + "/") by { assert (a + "/")[|a| - 1] != '/'; }
      var h := RStripSlashes(a + "/");
      assert RStripSlashes((a + "/")[..|a|]) == a;
      assert (a + "/")[..|a|] == a;
      assert h == a;
    }
  }

  /** True when some character of `p[lo..hi]` is not a dot. */
  predicate HasNonDot(p: string, lo: int, hi: int)
    requires 0 <= lo <= hi <= |p|
  {
    exists k :: lo <= k < hi && p[k] != '.'
  }

  /**
   * `posixpath.splitext(p)`: split before the last dot of the final
   * component, unless every character before that dot in the component is a
   * dot (so `.bashrc` has no extension).
   */
  function SplitExt(p: string): (r: (string, string))
  {
    var sepIndex := RFind(p, '/');
    var dotIndex := RFind(p, '.');
    if dotIndex > sepIndex && HasNonDot(p, sepIndex + 1, dotIndex) then (p[..dotIndex], p[dotIndex..])
    else (p, "")
  }

  /** The two parts of `splitext` put together give the path back; an extension is one dot-led, slash-free run. */
  lemma SplitExtParts(p: string)
    ensures SplitExt(p).0 + SplitExt(p).1 == p
    ensures SplitExt(p).1 == "" || (SplitExt(p).1[0] == '.' && '.' !in SplitExt(p).1[1..] && '/' !in SplitExt(p).1)
  {
    var sepIndex := RFind(p, '/');
    var dotIndex := RFind(p, '.');
    if dotIndex > sepIndex && HasNonDot(p, sepIndex + 1, dotIndex) {
      var ext := p[dotIndex..];
      assert p[..dotIndex] + ext == p;
      assert forall k :: 1 <= k < |ext| ==> ext[k] == p[dotIndex + k];
      assert forall k :: 0 <= k < |ext| ==> ext[k] == p[dotIndex + k];
    }
  }
}

=== FILE: py_text.dfy ===
/**
 * The few Python `str` and `list` operations the build scripts rely on,
 * written out over `seq<char>` and `seq<T>`.
 */
module PyText {
  import opened Wrappers
  import opened PyList

  predicate StartsWith(s: string, prefix: string) {
    |prefix| <= |s| && s[..|prefix|] == prefix
  }

  predicate EndsWith(s: string, suffix: string) {
    |suffix| <= |s| && s[|s| - |suffix|..] == suffix
  }

  /**
   * `a, b = s.split(c, 1)`: the text before and after the first `c`;
   * `None` where Python's unpacking raises `ValueError`.
   */
  function SplitOnce(s: string, c: char): (r: Option<(string, string)>)
    ensures r.None? <==> c !in s
    ensures r.Some? ==> r.value.0 + [c] + r.value.1 == s && c !in r.value.0
  {
    var i := IndexOf(s, c);
    if i == |s| then None
    else
      assert s == s[..i] + [c] + s[i + 1..];
      Some((s[..i], s[i + 1..]))
  }

  /** `s.split(c)` for a one-character separator: never empty, pieces hold no `c`. */
  function Split(s: string, c: char): (r: seq<string>)
    ensures |r| >= 1
    ensures forall k :: 0 <= k < |r| ==> c !in r[k]
    decreases |s|
  {
    var i := IndexOf(s, c);
    if i == |s| then [s]
    else [s[..i]] + Split(s[i + 1..], c)
  }

  /** `c.join(parts)`. */
  function Join(parts: seq<string>, c: char): string
  {
    if parts == [] then ""
    else if |parts| == 1 then parts[0]
    else parts[0] + [c] + Join(parts[1..], c)
  }

  /** Splitting and joining again gives back the text. */
  lemma {:induction false} JoinSplit(s: string, c: char)
    ensures Join(Split(s, c), c) == s
    decreases |s|
  {
    var i := IndexOf(s, c);
    if i < |s| {
      var w, rest := s[..i], s[i + 1..];
      assert s == w + [c] + rest;
      assert Split(s, c) == [w] + Split(rest, c);
      JoinSplit(rest, c);
      JoinCons(w, Split(rest, c), c);
    } else {
      assert Split(s, c) == [s];
    }
  }

  lemma JoinCons(w: string, parts: seq<string>, c: char)
    requires |parts| >= 1
    ensures Join([w] + parts, c) == w + [c] + Join(parts, c)
  {
    assert ([w] + parts)[1..] == parts;
  }

  /** Joining pieces free of `c` and splitting again gives back the pieces. */
  lemma {:induction false} SplitJoin(parts: seq<string>, c: char)
    requires |parts| >= 1
    requires forall k :: 0 <= k < |parts| ==> c !in parts[k]
    ensures Split(Join(parts, c), c) == parts
  {
    if |parts| > 1 {
      SplitJoin(parts[1..], c);
      SplitCons(parts[0], c, Join(parts[1..], c));
      assert parts == [parts[0]] + parts[1..];
    }
  }

  lemma {:induction false} SplitCons(w: string, c: char, rest: string)
    requires c !in w
    ensures Split(w + [c] + rest, c) == [w] + Split(rest, c)
  {
    var s := w + [c] + rest;
    assert s[|w|] == c;
    assert forall k :: 0 <= k < |w| ==> s[k] == w[k];
    assert IndexOf(s, c) == |w|;
    assert s[..|w|] == w;
    assert s[|w| + 1..] == rest;
  }

  /** The characters for which Python's `str.isspace()` holds. */
  predicate IsSpace(ch: char) {
    || ('\t' <= ch <= '\r')
    || ('\U{1c}' <= ch <= '\U{1f}')
    || ch == ' ' || ch == '\U{85}' || ch == '\U{a0}' || ch == '\U{1680}'
    || ('\U{2000}' <= ch <= '\U{200a}')
    || ch == '\U{2028}' || ch == '\U{2029}' || ch == '\U{202f}' || ch == '\U{205f}' || ch == '\U{3000}'
  }

  predicate IsWord(w: string) {
    w != [] && forall k :: 0 <= k < |w| ==> !IsSpace(w[k])
  }

  /** Length of the run of non-space characters that starts `s`. */
  function WordLength(s: string): (n: nat)
    ensures n <= |s|
    ensures forall k :: 0 <= k < n ==> !IsSpace(s[k])
    ensures n < |s| ==> IsSpace(s[n])
  {
    if s == [] || IsSpace(s[0]) then 0 else 1 + WordLength(s[1..])
  }

  /** `s.split()` with no argument: the maximal runs of non-space characters. */
  function SplitWhitespace(s: string): (r: seq<string>)
    ensures forall k :: 0 <= k < |r| ==> IsWord(r[k])
    decreases |s|
  {
    if s == [] then []
    else if IsSpace(s[0]) then SplitWhitespace(s[1..])
    else
      var n := WordLength(s);
      [s[..n]] + SplitWhitespace(s[n..])
  }

  predicate AllSpace(g: string) {
    forall k :: 0 <= k < |g| ==> IsSpace(g[k])
  }

  /** `gaps[0] + words[0] + gaps[1] + … + words[n - 1] + gaps[n]`. */
  function Weave(gaps: seq<string>, words: seq<string>): string
    requires |gaps| == |words| + 1
    decreases |words|
  {
    if words == [] then gaps[0] else gaps[0] + words[0] + Weave(gaps[1..], words[1..])
  }

  /**
   * `s` is made of `words`, in order, separated by whitespace gaps, every
   * gap between two words being non-empty: the words are the maximal runs
   * of non-space characters of `s`.
   */
  predicate WhitespaceSplitOf(s: string, words: seq<string>, gaps: seq<string>) {
    && |gaps| == |words| + 1
    && (forall i :: 0 <= i < |gaps| ==> AllSpace(gaps[i]))
    && (forall i :: 0 < i < |words| ==> gaps[i] != "")
    && s == Weave(gaps, words)
  }

  /** What `s.split()` returns: the words of `s`, with only whitespace around and between them. */
  lemma {:induction false} SplitWhitespaceWeaves(s: string)
    ensures exists gaps :: WhitespaceSplitOf(s, SplitWhitespace(s), gaps)
    decreases |s|
  {
    if s == [] {
      assert WhitespaceSplitOf(s, SplitWhitespace(s), [""]);
    } else if IsSpace(s[0]) {
      SplitWhitespaceWeaves(s[1..]);
      var g :| WhitespaceSplitOf(s[1..], SplitWhitespace(s[1..]), g);
      assert s == [s[0]] + s[1..];
      WeaveSpaceStep(s[0], s[1..], SplitWhitespace(s[1..]), g);
      assert SplitWhitespace(s) == SplitWhitespace(s[1..]);
      assert WhitespaceSplitOf(s, SplitWhitespace(s), [[s[0]] + g[0]] + g[1..]);
    } else {
      var n := WordLength(s);
      var w, rest := s[..n], s[n..];
      SplitWhitespaceWeaves(rest);
      var g :| WhitespaceSplitOf(rest, SplitWhitespace(rest), g);
      assert s == w + rest;
      WeaveWordStep(w, rest, SplitWhitespace(rest), g);
      assert SplitWhitespace(s) == [w] + SplitWhitespace(rest);
      assert WhitespaceSplitOf(s, SplitWhitespace(s), [""] + g);
    }
  }

  /** A space in front of the text joins the first gap. */
  lemma WeaveSpaceStep(c: char, rest: string, words: seq<string>, g: seq<string>)
    requires IsSpace(c) && WhitespaceSplitOf(rest, words, g)
    ensures WhitespaceSplitOf([c] + rest, words, [[c] + g[0]] + g[1..])
  {
    var gaps := [[c] + g[0]] + g[1..];
    assert gaps[1..] == g[1..];
    assert forall i :: 0 < i < |gaps| ==> gaps[i] == g[i];
  }

  /** A word in front of text that is empty or starts with a space becomes the first word, after an empty gap. */
  lemma WeaveWordStep(w: string, rest: string, words: seq<string>, g: seq<string>)
    requires IsWord(w) && (rest == [] || IsSpace(rest[0]))
    requires forall k :: 0 <= k < |words| ==> IsWord(words[k])
    requires WhitespaceSplitOf(rest, words, g)
    ensures WhitespaceSplitOf(w + rest, [w] + words, [""] + g)
  {
    var gaps, ws := [""] + g, [w] + words;
    assert gaps[1..] == g && ws[1..] == words;
    assert Weave(gaps, ws) == w + rest;
    assert forall i :: 0 < i < |gaps| ==> gaps[i] == g[i - 1];
    if |words| > 0 {
      WeaveStart(g, words);
    }
  }

  /** A woven text whose first gap is empty starts with the first word. */
  lemma WeaveStart(g: seq<string>, words: seq<string>)
    requires |g| == |words| + 1 && |words| > 0 && words[0] != ""
    requires forall i :: 0 <= i < |g| ==> AllSpace(g[i])
    requires !IsSpace(words[0][0])
    ensures Weave(g, words) != "" && (IsSpace(Weave(g, words)[0]) <==> g[0] != "")
  {
    var t := Weave(g, words);
    assert t == g[0] + words[0] + Weave(g[1..], words[1..]);
    if g[0] != "" {
      assert t[0] == g[0][0];
    } else {
      assert t[0] == words[0][0];
    }
  }

  /** `" ".join(words)`. */
  function JoinSpaces(words: seq<string>): string
  {
    Join(words, ' ')
  }

  /** Words joined by single spaces split back into the same words. */
  lemma {:induction false} SplitWhitespaceJoin(words: seq<string>)
    requires forall k :: 0 <= k < |words| ==> IsWord(words[k])
    ensures SplitWhitespace(JoinSpaces(words)) == words
  {
    if |words| == 1 {
      WordLengthOfWord(words[0], "");
      assert words[0] + "" == words[0];
      assert words[0][|words[0]|..] == "";
    } else if |words| > 1 {
      var w := words[0];
      var rest := JoinSpaces(words[1..]);
      SplitWhitespaceJoin(words[1..]);
      var s := w + [' '] + rest;
      WordLengthOfWord(w, [' '] + rest);
      assert s == w + ([' '] + rest);
      assert s[|w|..] == [' '] + rest;
      assert SplitWhitespace(s[|w|..]) == SplitWhitespace(rest);
    }
  }

  lemma {:induction false} WordLengthOfWord(w: string, rest: string)
    requires IsWord(w)
    requires rest == [] || IsSpace(rest[0])
    ensures WordLength(w + rest) == |w|
    decreases |w|
  {
    var s := w + rest;
    if |w| > 1 {
      assert s[1..] == w[1..] + rest;
      WordLengthOfWord(w[1..], rest);
    } else {
      assert s[1..] == rest;
    }
  }
}

/** Python's `list.remove` (the first equal item goes) and `in`. */
module PyList {

  /** Position of the first `x` in `s`, or `|s|` when there is none. */
  function IndexOf<T(==)>(s: seq<T>, x: T): (i: nat)
    ensures i <= |s|
    ensures i < |s| ==> s[i] == x
    ensures forall k :: 0 <= k < i ==> s[k] != x
    ensures i == |s| <==> x !in s
  {
    if s == [] then 0
    else if s[0] == x then 0
    else 1 + IndexOf(s[1..], x)
  }

  /** `s.remove(x)` when `x in s`, and `s` itself otherwise. */
  function RemoveFirst<T(==)>(s: seq<T>, x: T): (r: seq<T>)
  {
    var i := IndexOf(s, x);
    if i == |s| then s else s[..i] + s[i + 1..]
  }

  /** Removing takes out exactly one `x`, the first, and keeps the order of the rest. */
  lemma {:induction false} RemoveFirstSpec<T>(s: seq<T>, x: T)
    ensures x !in s ==> RemoveFirst(s, x) == s
    ensures x in s ==> |RemoveFirst(s, x)| == |s| - 1
    ensures x in s ==> RemoveFirst(s, x)[..IndexOf(s, x)] == s[..IndexOf(s, x)]
    ensures x in s ==> s == s[..IndexOf(s, x)] + [x] + RemoveFirst(s, x)[IndexOf(s, x)..]
    ensures multiset(RemoveFirst(s, x)) == multiset(s) - multiset{x}
  {
    var i := IndexOf(s, x);
    if i < |s| {
      var r := RemoveFirst(s, x);
      assert r == s[..i] + s[i + 1..];
      assert r[..i] == s[..i];
      assert r[i..] == s[i + 1..];
      DropOne(s, i);
    }
  }

  /** Dropping position `i` takes that one element out of the multiset and keeps the rest around it. */
  lemma DropOne<T>(s: seq<T>, i: nat)
    requires i < |s|
    ensures s == s[..i] + [s[i]] + s[i + 1..]
    ensures multiset(s[..i] + s[i + 1..]) == multiset(s) - multiset{s[i]}
  {
    var pre, post := s[..i], s[i + 1..];
    assert s == pre + [s[i]] + post;
    assert multiset(s) == multiset(pre) + multiset{s[i]} + multiset(post);
    assert multiset(pre + post) == multiset(pre) + multiset(post);
  }
}

=== FILE: script_bootstrap.dfy ===
/**
 * What `SCons.Script` decides before it imports the rest of the engine: the
 * up-front scan for `--debug=memoizer`, and the table of global names that
 * are forwarded to the default construction environment.
 */
module ScriptBootstrap {
  import opened PyText

  const DebugPrefix := "--debug="

  predicate IsDebugOption(arg: string) {
    StartsWith(arg, DebugPrefix)
  }

  /** `arg[len("--debug="):].split(",")`. */
  function DebugFields(arg: string): (r: seq<string>)
    requires IsDebugOption(arg)
    ensures |r| >= 1
  {
    Split(arg[|DebugPrefix|..], ',')
  }

  /** The chained comma-separated fields of every `--debug=` token, in order. */
  function AllDebugFields(args: seq<string>): seq<string>
  {
    if args == [] then []
    else
      var rest := AllDebugFields(args[1..]);
      if IsDebugOption(args[0]) then DebugFields(args[0]) + rest else rest
  }

  /** `sys.argv + os.environ.get("SCONSFLAGS", "").split()`; an unset variable is the empty string. */
  function ScannedArgs(argv: seq<string>, sconsflags: string): seq<string>
  {
    argv + SplitWhitespace(sconsflags)
  }

  /** A field occurs in the chained list exactly when some `--debug=` token carries it. */
  lemma {:induction false} InAllDebugFields(args: seq<string>, x: string)
    ensures x in AllDebugFields(args) <==>
              exists i, j :: 0 <= i < |args| && IsDebugOption(args[i]) &&
                             0 <= j < |DebugFields(args[i])| && DebugFields(args[i])[j] == x
  {
    if args != [] {
      InAllDebugFields(args[1..], x);
      if x in AllDebugFields(args) {
        if IsDebugOption(args[0]) && x in DebugFields(args[0]) {
          var j :| 0 <= j < |DebugFields(args[0])| && DebugFields(args[0])[j] == x;
          assert IsDebugOption(args[0]) && DebugFields(args[0])[j] == x;
        } else {
          assert x in AllDebugFields(args[1..]);
          var i, j :| 0 <= i < |args[1..]| && IsDebugOption(args[1..][i]) &&
                      0 <= j < |DebugFields(args[1..][i])| && DebugFields(args[1..][i])[j] == x;
          assert args[i + 1] == args[1..][i];
        }
      }
      if exists i, j :: 0 <= i < |args| && IsDebugOption(args[i]) &&
                        0 <= j < |DebugFields(args[i])| && DebugFields(args[i])[j] == x {
        var i, j :| 0 <= i < |args| && IsDebugOption(args[i]) &&
                    0 <= j < |DebugFields(args[i])| && DebugFields(args[i])[j] == x;
        if i > 0 {
          assert args[1..][i - 1] == args[i];
        }
      }
    }
  }

  /**
   * `"memoizer" in _args`: true exactly when some `--debug=` token on the
   * command line or in `SCONSFLAGS` lists `memoizer` among its fields.
   */
  function MemoizerRequested(argv: seq<string>, sconsflags: string): (r: bool)
    ensures var args := ScannedArgs(argv, sconsflags);
            r <==> exists i, j :: 0 <= i < |args| && IsDebugOption(args[i]) &&
                                  0 <= j < |DebugFields(args[i])| && DebugFields(args[i])[j] == "memoizer"
  {
    InAllDebugFields(ScannedArgs(argv, sconsflags), "memoizer");
    "memoizer" in AllDebugFields(ScannedArgs(argv, sconsflags))
  }

  /** A `--debug=` value is found wherever it sits in a comma-separated list. */
  lemma MemoizerAmongOthers(argv: seq<string>, before: seq<string>, after: seq<string>, i: nat)
    requires i < |argv|
    requires forall k :: 0 <= k < |before| ==> ',' !in before[k]
    requires forall k :: 0 <= k < |after| ==> ',' !in after[k]
    requires argv[i] == DebugPrefix + Join(before + ["memoizer"] + after, ',')
    ensures MemoizerRequested(argv, "")
  {
    var args := ScannedArgs(argv, "");
    assert args == argv by { assert SplitWhitespace("") == []; }
    DebugFieldsOfJoin(before, after);
    var j := |before|;
    assert IsDebugOption(args[i]) && 0 <= j < |DebugFields(args[i])| && DebugFields(args[i])[j] == "memoizer";
  }

  lemma DebugFieldsOfJoin(before: seq<string>, after: seq<string>)
    requires forall k :: 0 <= k < |before| ==> ',' !in before[k]
    requires forall k :: 0 <= k < |after| ==> ',' !in after[k]
    ensures var arg := DebugPrefix + Join(before + ["memoizer"] + after, ',');
            IsDebugOption(arg) && DebugFields(arg) == before + ["memoizer"] + after
  {
    var fields := before + ["memoizer"] + after;
    CommaFree(before, after);
    var joined := Join(fields, ',');
    PrefixThenRest(DebugPrefix, joined);
    SplitJoin(fields, ',');
  }

  lemma PrefixThenRest(p: string, s: string)
    ensures StartsWith(p + s, p)
    ensures (p + s)[|p|..] == s
  {
    assert (p + s)[..|p|] == p;
  }

  lemma CommaFree(before: seq<string>, after: seq<string>)
    requires forall k :: 0 <= k < |before| ==> ',' !in before[k]
    requires forall k :: 0 <= k < |after| ==> ',' !in after[k]
    ensures var fields := before + ["memoizer"] + after;
            forall k :: 0 <= k < |fields| ==> ',' !in fields[k]
  {
    var fields := before + ["memoizer"] + after;
    forall k | 0 <= k < |fields| ensures ',' !in fields[k] {
      if k < |before| {
        assert fields[k] == before[k];
      } else if k > |before| {
        assert fields[k] == after[k - |before| - 1];
      } else {
        assert fields[k] == "memoizer";
      }
    }
  }

  /** The `subst` flag of the proxy a global is bound to: `subst=0` (the default) or `subst=1`. */
  datatype SubstPolicy = NoSubst | Subst

  const GlobalDefaultEnvironmentFunctions: seq<string> := [
    "Default", "Export", "Help", "Import",
    "AddPostAction", "AddPreAction", "Alias", "AlwaysBuild", "CacheDir", "Clean",
    "Decider", "Depends", "Dir", "NoClean", "NoCache", "Entry", "Execute", "File",
    "FindFile", "FindInstalledFiles", "FindSourceFiles", "Flatten", "GetBuildPath",
    "Glob", "Ignore", "Install", "InstallAs", "InstallVersionedLib", "Literal", "Local",
    "ParseDepends", "Precious", "Pseudo", "PyPackageDir", "Repository", "Requires",
    "SConsignFile", "SideEffect", "Split", "Tag", "Value", "VariantDir"
  ]

  const GlobalDefaultBuilders: seq<string> := [
    "CFile", "CXXFile", "DVI", "Jar", "Java", "JavaH", "Library", "LoadableModule",
    "M4", "MSVSProject", "Object", "PCH", "PDF", "PostScript", "Program", "RES", "RMIC",
    "SharedLibrary", "SharedObject", "StaticLibrary", "StaticObject", "Substfile",
    "Tar", "Textfile", "TypeLibrary", "Zip", "Package"
  ]

  function WithPolicy(names: seq<string>, p: SubstPolicy): (r: seq<(string, SubstPolicy)>)
    ensures |r| == |names|
    ensures forall k :: 0 <= k < |r| ==> r[k] == (names[k], p)
  {
    seq(|names|, k requires 0 <= k < |names| => (names[k], p))
  }

  /**
   * The globals bound to `DefaultEnvironmentCall`: every listed function and
   * builder, then `SConscript`, all with `subst=0`, and `Command` with `subst=1`.
   */
  function DefaultEnvironmentBindings(): (r: seq<(string, SubstPolicy)>)
    ensures |r| == |GlobalDefaultEnvironmentFunctions| + |GlobalDefaultBuilders| + 2
    ensures forall k :: 0 <= k < |r| - 1 ==> r[k].1 == NoSubst
    ensures r[|r| - 2] == ("SConscript", NoSubst)
    ensures r[|r| - 1] == ("Command", Subst)
  {
    WithPolicy(GlobalDefaultEnvironmentFunctions + GlobalDefaultBuilders + ["SConscript"], NoSubst)
      + [("Command", Subst)]
  }

  /** The bindings follow the two tables name for name, in table order, each with `subst=0`. */
  lemma BindingsFollowTables()
    ensures var names, r := GlobalDefaultEnvironmentFunctions + GlobalDefaultBuilders, DefaultEnvironmentBindings();
            forall k :: 0 <= k < |names| ==> r[k] == (names[k], NoSubst)
  {
  }
}

=== FILE: script_scenarios.dfy ===
/**
 * Small SConscript-shaped call sequences on a fresh session, proved from
 * the contracts of `ScriptSession` alone.
 */
module ScriptScenarios {
  import opened Wrappers
  import opened PyList
  import opened ScriptSession

  /**
   * `a=1 a=2` on the command line leaves `ARGUMENTS['a'] == '2'`; removing
   * `a=2` again brings back `'1'`, the last value still in `ARGLIST`.
   */
  method ArgumentOverrideAndRemoval() returns (afterAdd: Option<string>, afterRemove: Option<string>)
    ensures afterAdd == Some("2")
    ensures afterRemove == Some("1")
  {
    var s := new Session();
    var tokens := ["a" + "=" + "1", "a" + "=" + "2"];
    AssignmentRoundTrip("a", "1");
    AssignmentRoundTrip("a", "2");
    FirstMalformedIs(tokens, 2);
    assert tokens[..2] == tokens;
    assert Assignments(tokens) == [("a", "1"), ("a", "2")];
    var o1 := s.AddArguments(tokens);
    assert s.argList == [("a", "1"), ("a", "2")];
    DeriveIsLastValue(s.argList, "a");
    afterAdd := Lookup(s.arguments, "a");
    var pending := s.argList;
    var o2 := s.RemoveArgument("a" + "=" + "2");
    assert IndexOf(pending, ("a", "2")) == 1;
    assert RemoveFirst(pending, ("a", "2")) == [("a", "1")];
    assert s.argList == [("a", "1")];
    DeriveIsLastValue(s.argList, "a");
    afterRemove := Lookup(s.arguments, "a");
  }

  /**
   * Once the command line has named `x`, a later `Default('y')` records `y`
   * in `DEFAULT_TARGETS` but leaves `BUILD_TARGETS` as the command line set it.
   */
  method CommandLineTargetsWinOverDefault(resolve: string -> seq<Node>)
    returns (build: seq<Target>, defaults: seq<Node>)
    ensures build == [Name("x")]
    ensures defaults == resolve("y")
  {
    var s := new Session();
    s.AddTargets(["x"]);
    assert s.buildTargets.items == [Name("x")] && s.buildTargets.frozen;
    s.SetDefaultTargets(resolve, [Pattern("y")]);
    assert Apply([], [Pattern("y")], resolve, NodeOf) == Step([], Pattern("y"), resolve, NodeOf);
    LiftNodeOf(resolve("y"));
    build := s.buildTargets.items;
    defaults := s.defaultTargets;
  }

  /** Two `Help()` calls without `append` accumulate their texts, in order. */
  method HelpAccumulates(printHelp: bool -> string) returns (text: Option<string>)
    ensures text == Some("A" + "B")
  {
    var s := new Session();
    s.Help("A", false, false, printHelp);
    assert s.helpBaseline + "A" == "A";
    s.Help("B", false, false, printHelp);
    text := s.helpText;
  }
}

=== FILE: script_session.dfy ===
/**
 * The script-level session state of the `SCons.Script` package: the
 * command-line argument registry (`ARGUMENTS`, `ARGLIST`), the target
 * registry (`COMMAND_LINE_TARGETS`, `BUILD_TARGETS`, `_build_plus_default`,
 * `DEFAULT_TARGETS`), the two-state default-target resolver and the help-text
 * accumulator.
 *
 * Node resolution (`env.arg2nodes`), the current-directory node
 * (`fs.Dir('.')`) and the help printer (`PrintHelp`) are function parameters.
 */
module ScriptSession {
  import opened Wrappers
  import PyText
  import opened PyList

  /** A build-graph node; only its identity matters here. */
  datatype Node = Node(id: nat)

  /** An element of `BUILD_TARGETS`: a command-line target name or a node. */
  datatype Target = Name(name: string) | Entry(node: Node)

  /** An argument of `Default()`: `None`, a node, or a string, which is resolved. */
  datatype DefaultItem = ClearDefaults | NodeItem(node: Node) | Pattern(name: string)

  /** The outcome of parsing `key=value` tokens: a token without `=` raises `ValueError`. */
  datatype Outcome = Done | Malformed(token: string)

  /* ---------------------------------------------------------------- */
  /* Argument registry                                                 */
  /* ---------------------------------------------------------------- */

  /** The value of the last `ARGLIST` entry for `k`, if there is one. */
  function LastValue(l: seq<(string, string)>, k: string): Option<string>
  {
    if l == [] then None
    else if l[|l| - 1].0 == k then Some(l[|l| - 1].1)
    else LastValue(l[..|l| - 1], k)
  }

  /** `ARGUMENTS` as the assignments of `ARGLIST` leave it, applied in order. */
  function Derive(l: seq<(string, string)>): map<string, string>
  {
    if l == [] then map[]
    else Derive(l[..|l| - 1])[l[|l| - 1].0 := l[|l| - 1].1]
  }

  /** The last value for a key comes from an entry of the list, and there is none exactly when no entry has that key. */
  lemma {:induction false} LastValueOf(l: seq<(string, string)>, k: string)
    ensures LastValue(l, k).Some? ==> (k, LastValue(l, k).value) in l
    ensures LastValue(l, k).None? <==> forall i :: 0 <= i < |l| ==> l[i].0 != k
  {
    if l != [] {
      var init := l[..|l| - 1];
      LastValueOf(init, k);
      assert forall i :: 0 <= i < |init| ==> init[i] == l[i];
    }
  }

  /** Every key of `ARGLIST` is bound in `ARGUMENTS`, and every binding is an entry of `ARGLIST`. */
  lemma {:induction false} DeriveBindings(l: seq<(string, string)>)
    ensures forall i :: 0 <= i < |l| ==> l[i].0 in Derive(l)
    ensures forall k :: k in Derive(l) ==> (k, Derive(l)[k]) in l
  {
    if l != [] {
      var init := l[..|l| - 1];
      DeriveBindings(init);
      assert forall i :: 0 <= i < |init| ==> init[i] == l[i];
    }
  }

  function Lookup(m: map<string, string>, k: string): Option<string>
  {
    if k in m then Some(m[k]) else None
  }

  /** The last-value invariant: `ARGUMENTS[k]` is the last value given for `k`, and absent if none was. */
  lemma {:induction false} DeriveIsLastValue(l: seq<(string, string)>, k: string)
    ensures Lookup(Derive(l), k) == LastValue(l, k)
  {
    if l != [] {
      DeriveIsLastValue(l[..|l| - 1], k);
    }
  }

  /** Entries appended after `a` decide the last value when they mention the key. */
  lemma {:induction false} LastValueAppend(a: seq<(string, string)>, b: seq<(string, string)>, k: string)
    ensures LastValue(a + b, k) == if LastValue(b, k).Some? then LastValue(b, k) else LastValue(a, k)
    decreases |b|
  {
    if b == [] {
      assert a + b == a;
    } else {
      var b' := b[..|b| - 1];
      assert (a + b)[..|a + b| - 1] == a + b';
      LastValueAppend(a, b', k);
    }
  }

  /** Taking out one `(a, v)` entry leaves the last value of every other key as it was. */
  lemma {:induction false} LastValueRemoveOther(l: seq<(string, string)>, p: (string, string), k: string)
    requires k != p.0
    ensures LastValue(RemoveFirst(l, p), k) == LastValue(l, k)
  {
    var i := IndexOf(l, p);
    if i < |l| {
      var pre, post := l[..i], l[i + 1..];
      assert l == pre + [p] + post;
      assert RemoveFirst(l, p) == pre + post;
      LastValueAppend(pre, post, k);
      LastValueAppend(pre + [p], post, k);
      LastValueAppend(pre, [p], k);
      assert LastValue([p], k) == None by { assert [p][..0] == []; }
    }
  }

  /** `m` with key `k` set to `v`, or deleted when `v` is `None`. */
  function Reset(m: map<string, string>, k: string, v: Option<string>): (r: map<string, string>)
    ensures Lookup(r, k) == v
    ensures forall j :: j != k ==> Lookup(r, j) == Lookup(m, j)
  {
    match v
    case None => m - {k}
    case Some(x) => m[k := x]
  }

  lemma MapsEqualByLookup(m1: map<string, string>, m2: map<string, string>)
    requires forall k :: Lookup(m1, k) == Lookup(m2, k)
    ensures m1 == m2
  {
    assert forall k :: k in m1 <==> Lookup(m1, k).Some?;
    assert m1.Keys == m2.Keys by {
      forall k ensures k in m1 <==> k in m2 {
        assert Lookup(m1, k) == Lookup(m2, k);
      }
    }
    forall k | k in m1 ensures m1[k] == m2[k] {
      assert Lookup(m1, k) == Lookup(m2, k);
    }
  }

  /**
   * What `_Remove_Argument` leaves in `ARGUMENTS`: other keys keep their
   * values, and key `p.0` is reset to its last remaining value.
   */
  lemma DeriveAfterRemove(l: seq<(string, string)>, p: (string, string))
    ensures Derive(RemoveFirst(l, p)) == Reset(Derive(l) - {p.0}, p.0, LastValue(RemoveFirst(l, p), p.0))
  {
    var l' := RemoveFirst(l, p);
    var m := Reset(Derive(l) - {p.0}, p.0, LastValue(l', p.0));
    forall k ensures Lookup(Derive(l'), k) == Lookup(m, k) {
      DeriveIsLastValue(l', k);
      DeriveIsLastValue(l, k);
      if k != p.0 {
        LastValueRemoveOther(l, p, k);
        assert Lookup(Derive(l) - {p.0}, k) == Lookup(Derive(l), k);
      }
    }
    MapsEqualByLookup(Derive(l'), m);
  }

  predicate IsAssignment(token: string) {
    '=' in token
  }

  /** Position of the first token without `=`, or `|tokens|`. */
  function FirstMalformed(tokens: seq<string>): (n: nat)
    ensures n <= |tokens|
    ensures forall k :: 0 <= k < n ==> IsAssignment(tokens[k])
    ensures n < |tokens| ==> !IsAssignment(tokens[n])
  {
    if tokens == [] then 0
    else if !IsAssignment(tokens[0]) then 0
    else 1 + FirstMalformed(tokens[1..])
  }

  lemma FirstMalformedIs(tokens: seq<string>, i: nat)
    requires i <= |tokens|
    requires forall k :: 0 <= k < i ==> IsAssignment(tokens[k])
    requires i < |tokens| ==> !IsAssignment(tokens[i])
    ensures FirstMalformed(tokens) == i
  {
  }

  /** `a, b = token.split('=', 1)` for a token that has an `=`. */
  function Assignment(token: string): (r: (string, string))
    requires IsAssignment(token)
    ensures r.0 + "=" + r.1 == token
    ensures '=' !in r.0
  {
    PyText.SplitOnce(token, '=').value
  }

  /** Splitting `k=v` at its first `=` gives back `k` and `v` whenever `k` holds no `=`. */
  lemma AssignmentRoundTrip(k: string, v: string)
    requires '=' !in k
    ensures IsAssignment(k + "=" + v)
    ensures Assignment(k + "=" + v) == (k, v)
  {
    var t := k + "=" + v;
    assert t[|k|] == '=';
    var r := Assignment(t);
    assert t == r.0 + "=" + r.1;
    assert |r.0| == |k|;
    assert r.0 == t[..|k|] == k;
    assert r.1 == t[|k| + 1..] == v;
  }

  /** The `ARGLIST` entries for tokens that all carry an `=`, in order. */
  function Assignments(tokens: seq<string>): (r: seq<(string, string)>)
    requires forall k :: 0 <= k < |tokens| ==> IsAssignment(tokens[k])
    ensures |r| == |tokens|
  {
    seq(|tokens|, k requires 0 <= k < |tokens| => Assignment(tokens[k]))
  }

  lemma DeriveSnoc(l: seq<(string, string)>, p: (string, string))
    ensures Derive(l + [p]) == Derive(l)[p.0 := p.1]
  {
    assert (l + [p])[..|l|] == l;
  }

  lemma AssignmentsSnoc(tokens: seq<string>, i: nat)
    requires i < |tokens|
    requires forall k :: 0 <= k <= i ==> IsAssignment(tokens[k])
    ensures Assignments(tokens[..i + 1]) == Assignments(tokens[..i]) + [Assignment(tokens[i])]
  {
    var l, r := Assignments(tokens[..i + 1]), Assignments(tokens[..i]) + [Assignment(tokens[i])];
    assert |l| == |r|;
    forall k | 0 <= k < |l| ensures l[k] == r[k] {
      if k < i {
        assert tokens[..i + 1][k] == tokens[..i][k];
      }
    }
  }

  /* ---------------------------------------------------------------- */
  /* Target registry                                                   */
  /* ---------------------------------------------------------------- */

  function AsTarget(n: Node): Target { Entry(n) }

  function NodeOf(n: Node): Node { n }

  /** `[inj(n) for n in ns]`. */
  function Lift<T>(ns: seq<Node>, inj: Node -> T): (r: seq<T>)
    ensures |r| == |ns|
  {
    seq(|ns|, k requires 0 <= k < |ns| => inj(ns[k]))
  }

  /** Lifting nodes into nodes is the identity. */
  lemma LiftNodeOf(ns: seq<Node>)
    ensures Lift(ns, NodeOf) == ns
  {
    var r := Lift(ns, NodeOf);
    forall k | 0 <= k < |ns| ensures r[k] == ns[k] {
      assert r[k] == NodeOf(ns[k]);
    }
  }

  /** Lifting distributes over concatenation. */
  lemma LiftAppend<T>(a: seq<Node>, b: seq<Node>, inj: Node -> T)
    ensures Lift(a + b, inj) == Lift(a, inj) + Lift(b, inj)
  {
    var l, r := Lift(a + b, inj), Lift(a, inj) + Lift(b, inj);
    forall k | 0 <= k < |a + b| ensures l[k] == r[k] {
      if k < |a| {
        assert (a + b)[k] == a[k];
      } else {
        assert (a + b)[k] == b[k - |a|];
      }
    }
  }

  function Names(ts: seq<string>): (r: seq<Target>)
    ensures |r| == |ts|
  {
    seq(|ts|, k requires 0 <= k < |ts| => Name(ts[k]))
  }

  /** The effect of one `Default()` argument on an unfrozen list: clear, append a node, or append the resolved nodes. */
  function Step<T>(s: seq<T>, item: DefaultItem, resolve: string -> seq<Node>, inj: Node -> T): (r: seq<T>)
    ensures item.ClearDefaults? || s <= r
  {
    match item
    case ClearDefaults => []
    case NodeItem(n) => s + [inj(n)]
    case Pattern(name) => s + Lift(resolve(name), inj)
  }

  /** The arguments of `Default()` applied strictly in order. */
  function Apply<T>(s: seq<T>, items: seq<DefaultItem>, resolve: string -> seq<Node>, inj: Node -> T): seq<T>
    decreases |items|
  {
    if items == [] then s
    else Step(Apply(s, items[..|items| - 1], resolve, inj), items[|items| - 1], resolve, inj)
  }

  lemma ApplySnoc<T>(s: seq<T>, items: seq<DefaultItem>, i: nat, resolve: string -> seq<Node>, inj: Node -> T)
    requires i < |items|
    ensures Apply(s, items[..i + 1], resolve, inj) == Step(Apply(s, items[..i], resolve, inj), items[i], resolve, inj)
  {
    assert items[..i + 1][..i] == items[..i];
  }

  /** Applying two argument lists one after the other is applying their concatenation. */
  lemma {:induction false} ApplyConcat<T>(s: seq<T>, a: seq<DefaultItem>, b: seq<DefaultItem>,
                                         resolve: string -> seq<Node>, inj: Node -> T)
    ensures Apply(s, a + b, resolve, inj) == Apply(Apply(s, a, resolve, inj), b, resolve, inj)
    decreases |b|
  {
    if b == [] {
      assert a + b == a;
    } else {
      var b' := b[..|b| - 1];
      assert (a + b)[..|a + b| - 1] == a + b';
      assert (a + b)[|a + b| - 1] == b[|b| - 1];
      ApplyConcat(s, a, b', resolve, inj);
    }
  }

  /** A clear followed by additions keeps only the additions, whatever came before. */
  lemma ClearThenAdditions<T>(s: seq<T>, before: seq<DefaultItem>, after: seq<DefaultItem>,
                              resolve: string -> seq<Node>, inj: Node -> T)
    ensures Apply(s, before + [ClearDefaults] + after, resolve, inj) == Apply([], after, resolve, inj)
  {
    ApplyConcat(s, before + [ClearDefaults], after, resolve, inj);
    ApplyConcat(s, before, [ClearDefaults], resolve, inj);
    assert [ClearDefaults][..0] == [];
  }

  predicate NoClear(items: seq<DefaultItem>) {
    forall k :: 0 <= k < |items| ==> !items[k].ClearDefaults?
  }

  /** Without a clear, the list only grows: the old contents stay in front, followed by every added node. */
  lemma {:induction false} ApplyWithoutClear<T>(s: seq<T>, items: seq<DefaultItem>,
                                               resolve: string -> seq<Node>, inj: Node -> T)
    requires NoClear(items)
    ensures Apply(s, items, resolve, inj) == s + Apply([], items, resolve, inj)
    decreases |items|
  {
    if items != [] {
      var pre := items[..|items| - 1];
      ApplyWithoutClear(s, pre, resolve, inj);
      var a := Apply([], pre, resolve, inj);
      match items[|items| - 1]
      case NodeItem(n) =>
        assert (s + a) + [inj(n)] == s + (a + [inj(n)]);
      case Pattern(name) =>
        assert (s + a) + Lift(resolve(name), inj) == s + (a + Lift(resolve(name), inj));
    }
  }

  /**
   * The same arguments move `DEFAULT_TARGETS` and an unfrozen
   * `BUILD_TARGETS` in lockstep: starting from the same nodes, they end with
   * the same nodes.
   */
  lemma {:induction false} ApplyLockstep(s: seq<Node>, items: seq<DefaultItem>, resolve: string -> seq<Node>)
    ensures Apply(Lift(s, AsTarget), items, resolve, AsTarget) == Lift(Apply(s, items, resolve, NodeOf), AsTarget)
    decreases |items|
  {
    if items != [] {
      var pre := items[..|items| - 1];
      ApplyLockstep(s, pre, resolve);
      var d := Apply(s, pre, resolve, NodeOf);
      match items[|items| - 1]
      case ClearDefaults =>
      case NodeItem(n) =>
        assert Lift(d + [NodeOf(n)], AsTarget) == Lift(d, AsTarget) + [AsTarget(n)];
      case Pattern(name) =>
        var ns := resolve(name);
        LiftNodeOf(ns);
        LiftAppend(d, ns, AsTarget);
    }
  }

  /**
   * `TargetList`: a list with two "default" mutators that become no-ops once
   * the list is frozen, which the original does by rebinding `_add_Default`
   * and `_clear` to `_do_nothing`. Direct list operations ignore the flag.
   */
  class TargetList {
    var items: seq<Target>
    var frozen: bool

    constructor ()
      ensures items == [] && !frozen
    {
      items := [];
      frozen := false;
    }

    /** `_add_Default(list)`: extend, unless frozen. */
    method AddDefault(list: seq<Target>)
      modifies this
      ensures frozen == old(frozen)
      ensures items == if frozen then old(items) else old(items) + list
    {
      if !frozen {
        items := items + list;
      }
    }

    /** `_clear()`: `del self[:]`, unless frozen. */
    method Clear()
      modifies this
      ensures frozen == old(frozen)
      ensures items == if frozen then old(items) else []
    {
      if !frozen {
        items := [];
      }
    }

    /** `extend(list)`, which the freeze does not affect. */
    method Extend(list: seq<Target>)
      modifies this
      ensures frozen == old(frozen)
      ensures items == old(items) + list
    {
      items := items + list;
    }

    /** Swapping both default mutators for `_do_nothing`; nothing swaps them back. */
    method Freeze()
      modifies this
      ensures frozen
      ensures items == old(items)
    {
      frozen := true;
    }

    /** `remove(x)`: `found` is false where the list method raises `ValueError`. */
    method Remove(x: Target) returns (found: bool)
      modifies this
      ensures frozen == old(frozen)
      ensures found == (x in old(items))
      ensures items == RemoveFirst(old(items), x)
    {
      found := x in items;
      items := RemoveFirst(items, x);
    }

    /** `if x in self: self.remove(x)`: the first occurrence goes, and a missing one is no error. */
    method RemoveIfPresent(x: Target)
      modifies this
      ensures frozen == old(frozen)
      ensures items == RemoveFirst(old(items), x)
    {
      if x in items {
        var _ := Remove(x);
      } else {
        PyList.RemoveFirstSpec(items, x);
      }
    }
  }

  /**
   * The module-level state of `SCons.Script`. The two `TargetList` objects
   * are `const` references: the lists are mutated, never replaced.
   */
  class Session {
    var arguments: map<string, string>
    var argList: seq<(string, string)>
    var commandLineTargets: seq<string>
    const buildTargets: TargetList
    const buildPlusDefault: TargetList
    var defaultTargets: seq<Node>
    /** False while `_Get_Default_Targets` is `_Set_Default_Targets_Has_Not_Been_Called`. */
    var defaultsDeclared: bool
    /** `help_text`: `None` until the first `Help()` call. */
    var helpText: Option<string>
    /** The text `help_text` started from, and the texts appended to it, in call order. */
    ghost var helpBaseline: string
    ghost var helpCalls: seq<string>
    var noMissingSConscript: bool

    ghost predicate Valid()
      reads this, buildTargets, buildPlusDefault
    {
      && buildTargets != buildPlusDefault
      && buildTargets.frozen == buildPlusDefault.frozen
      && arguments == Derive(argList)
      && (helpText.None? ==> helpCalls == [])
      && (helpText.Some? ==> helpText.value == helpBaseline + Concat(helpCalls))
    }

    /** The state at import time. */
    constructor ()
      ensures Valid()
      ensures fresh(buildTargets) && fresh(buildPlusDefault)
      ensures arguments == map[] && argList == [] && commandLineTargets == []
      ensures buildTargets.items == [] && buildPlusDefault.items == [] && !buildTargets.frozen
      ensures defaultTargets == [] && !defaultsDeclared && helpText == None && noMissingSConscript
    {
      arguments := map[];
      argList := [];
      commandLineTargets := [];
      buildTargets := new TargetList();
      buildPlusDefault := new TargetList();
      defaultTargets := [];
      defaultsDeclared := false;
      helpText := None;
      helpBaseline := "";
      helpCalls := [];
      noMissingSConscript := true;
    }

    /**
     * `_Add_Arguments`: each token is split at its first `=` and recorded;
     * the first token without `=` stops the loop with `ValueError`, leaving
     * the tokens before it recorded.
     */
    method AddArguments(alist: seq<string>) returns (outcome: Outcome)
      requires Valid()
      modifies this`arguments, this`argList
      ensures Valid()
      ensures var n := FirstMalformed(alist);
              && argList == old(argList) + Assignments(alist[..n])
              && outcome == if n == |alist| then Done else Malformed(alist[n])
    {
      var i := 0;
      while i < |alist|
        invariant 0 <= i <= |alist|
        invariant forall k :: 0 <= k < i ==> IsAssignment(alist[k])
        invariant argList == old(argList) + Assignments(alist[..i])
        invariant arguments == Derive(argList)
      {
        var arg := alist[i];
        match PyText.SplitOnce(arg, '=')
        case None =>
          FirstMalformedIs(alist, i);
          return Malformed(arg);
        case Some(pair) =>
          AssignmentsSnoc(alist, i);
          Record(pair.0, pair.1);
          i := i + 1;
      }
      assert alist[..i] == alist;
      FirstMalformedIs(alist, i);
      return Done;
    }

    /**
     * `_Remove_Argument`: drop the first `(key, value)` entry matching `aarg`
     * and put the last remaining value for that key back into `ARGUMENTS`.
     * The empty string and an absent pair change nothing.
     */
    method RemoveArgument(aarg: string) returns (outcome: Outcome)
      requires Valid()
      modifies this`arguments, this`argList
      ensures Valid()
      ensures aarg == "" ==> outcome == Done && argList == old(argList)
      ensures aarg != "" && !IsAssignment(aarg) ==> outcome == Malformed(aarg) && argList == old(argList)
      ensures aarg != "" && IsAssignment(aarg) ==>
                outcome == Done && argList == RemoveFirst(old(argList), Assignment(aarg))
    {
      if aarg == "" {
        return Done;
      }
      match PyText.SplitOnce(aarg, '=')
      case None =>
        return Malformed(aarg);
      case Some(pair) =>
        RemovePair(pair);
        return Done;
    }

    /** `ARGUMENTS[a] = b; ARGLIST.append((a, b))`. */
    method Record(a: string, b: string)
      requires arguments == Derive(argList)
      modifies this`arguments, this`argList
      ensures argList == old(argList) + [(a, b)]
      ensures arguments == Derive(argList)
    {
      arguments := arguments[a := b];
      DeriveSnoc(argList, (a, b));
      argList := argList + [(a, b)];
    }

    /**
     * The body of `_Remove_Argument` once the token is split: remove the
     * pair if `ARGLIST` holds it, pop the key, and restore its last value.
     */
    method RemovePair(pair: (string, string))
      requires arguments == Derive(argList)
      modifies this`arguments, this`argList
      ensures argList == RemoveFirst(old(argList), pair)
      ensures arguments == Derive(argList)
    {
      if pair in argList {
        var a := pair.0;
        argList := RemoveFirst(argList, pair);
        arguments := arguments - {a};
        RestoreArgument(a);
        DeriveAfterRemove(old(argList), pair);
      } else {
        PyList.RemoveFirstSpec(argList, pair);
      }
    }

    /**
     * The loop of `_Remove_Argument` after the pop: walk `ARGLIST` and set
     * `ARGUMENTS[a]` to each value given for `a`, so the last one sticks.
     */
    method RestoreArgument(a: string)
      requires a !in arguments
      modifies this`arguments
      ensures arguments == Reset(old(arguments), a, LastValue(argList, a))
    {
      ghost var popped := arguments;
      var i := 0;
      while i < |argList|
        invariant 0 <= i <= |argList|
        invariant arguments == Reset(popped, a, LastValue(argList[..i], a))
      {
        assert argList[..i + 1][..i] == argList[..i];
        if argList[i].0 == a {
          arguments := arguments[a := argList[i].1];
        }
        i := i + 1;
      }
      assert argList[..i] == argList;
    }

    /**
     * `_Add_Targets`: a non-empty list is appended to all three target lists,
     * and the two `TargetList`s are frozen; an empty list changes nothing.
     */
    method AddTargets(tlist: seq<string>)
      requires Valid()
      modifies this`commandLineTargets, buildTargets, buildPlusDefault
      ensures Valid()
      ensures tlist == [] ==> commandLineTargets == old(commandLineTargets)
      ensures tlist == [] ==> buildTargets.items == old(buildTargets.items) && buildPlusDefault.items == old(buildPlusDefault.items)
      ensures buildTargets.frozen == (old(buildTargets.frozen) || tlist != [])
      ensures tlist != [] ==> commandLineTargets == old(commandLineTargets) + tlist
      ensures tlist != [] ==> buildTargets.items == old(buildTargets.items) + Names(tlist)
      ensures tlist != [] ==> buildPlusDefault.items == old(buildPlusDefault.items) + Names(tlist)
    {
      if tlist != [] {
        commandLineTargets := commandLineTargets + tlist;
        buildTargets.Extend(Names(tlist));
        buildTargets.Freeze();
        buildPlusDefault.Extend(Names(tlist));
        buildPlusDefault.Freeze();
      }
    }

    /**
     * `_Remove_Target`: the first occurrence of the name goes from each of
     * the three target lists that holds it, frozen or not; `DEFAULT_TARGETS`
     * is not touched.
     */
    method RemoveTarget(targ: string)
      requires Valid()
      modifies this`commandLineTargets, buildTargets, buildPlusDefault
      ensures Valid()
      ensures buildTargets.frozen == old(buildTargets.frozen)
      ensures commandLineTargets == if targ == "" then old(commandLineTargets) else RemoveFirst(old(commandLineTargets), targ)
      ensures buildTargets.items == if targ == "" then old(buildTargets.items) else RemoveFirst(old(buildTargets.items), Name(targ))
      ensures buildPlusDefault.items == if targ == "" then old(buildPlusDefault.items) else RemoveFirst(old(buildPlusDefault.items), Name(targ))
    {
      if targ != "" {
        if targ in commandLineTargets {
          commandLineTargets := RemoveFirst(commandLineTargets, targ);
        } else {
          PyList.RemoveFirstSpec(commandLineTargets, targ);
        }
        buildTargets.RemoveIfPresent(Name(targ));
        buildPlusDefault.RemoveIfPresent(Name(targ));
      }
    }

    /**
     * `_Get_Default_Targets(d, fs)` in whichever state it is bound to:
     * before `Default()` has been called it is the fallback rule, afterwards
     * it is `DEFAULT_TARGETS`, whatever the arguments.
     */
    function GetDefaultTargets(d: Option<seq<Target>>, dirOf: string -> Node): (r: seq<Target>)
      reads this
      ensures !defaultsDeclared ==> r == DefaultTargetsNotYetSet(d, dirOf)
      ensures defaultsDeclared ==> r == Lift(defaultTargets, AsTarget)
    {
      if defaultsDeclared then Lift(defaultTargets, AsTarget) else DefaultTargetsNotYetSet(d, dirOf)
    }

    /**
     * `_Set_Default_Targets`: switches the resolver to its second state, then
     * applies the arguments in order to `DEFAULT_TARGETS` and, unless frozen,
     * to `BUILD_TARGETS` and `_build_plus_default`.
     */
    method SetDefaultTargets(resolve: string -> seq<Node>, tlist: seq<DefaultItem>)
      requires Valid()
      modifies this`defaultTargets, this`defaultsDeclared, buildTargets, buildPlusDefault
      ensures Valid()
      ensures defaultsDeclared
      ensures defaultTargets == Apply(old(defaultTargets), tlist, resolve, NodeOf)
      ensures buildTargets.frozen == old(buildTargets.frozen)
      ensures buildTargets.items ==
                if buildTargets.frozen then old(buildTargets.items)
                else Apply(old(buildTargets.items), tlist, resolve, AsTarget)
      ensures buildPlusDefault.items ==
                if buildPlusDefault.frozen then old(buildPlusDefault.items)
                else Apply(old(buildPlusDefault.items), tlist, resolve, AsTarget)
    {
      defaultsDeclared := true;
      var i := 0;
      while i < |tlist|
        invariant 0 <= i <= |tlist|
        invariant defaultsDeclared
        invariant buildTargets.frozen == old(buildTargets.frozen)
        invariant buildPlusDefault.frozen == old(buildPlusDefault.frozen)
        invariant defaultTargets == Apply(old(defaultTargets), tlist[..i], resolve, NodeOf)
        invariant buildTargets.items ==
                    if buildTargets.frozen then old(buildTargets.items)
                    else Apply(old(buildTargets.items), tlist[..i], resolve, AsTarget)
        invariant buildPlusDefault.items ==
                    if buildPlusDefault.frozen then old(buildPlusDefault.items)
                    else Apply(old(buildPlusDefault.items), tlist[..i], resolve, AsTarget)
      {
        ApplySnoc(old(defaultTargets), tlist, i, resolve, NodeOf);
        ApplySnoc(old(buildTargets.items), tlist, i, resolve, AsTarget);
        ApplySnoc(old(buildPlusDefault.items), tlist, i, resolve, AsTarget);
        ApplyDefaultItem(resolve, tlist[i]);
        i := i + 1;
      }
      assert tlist[..i] == tlist;
    }

    /** One pass of the loop in `_Set_Default_Targets`. */
    method ApplyDefaultItem(resolve: string -> seq<Node>, item: DefaultItem)
      requires buildTargets != buildPlusDefault
      modifies this`defaultTargets, buildTargets, buildPlusDefault
      ensures defaultTargets == Step(old(defaultTargets), item, resolve, NodeOf)
      ensures buildTargets.frozen == old(buildTargets.frozen)
      ensures buildPlusDefault.frozen == old(buildPlusDefault.frozen)
      ensures buildTargets.items ==
                if buildTargets.frozen then old(buildTargets.items)
                else Step(old(buildTargets.items), item, resolve, AsTarget)
      ensures buildPlusDefault.items ==
                if buildPlusDefault.frozen then old(buildPlusDefault.items)
                else Step(old(buildPlusDefault.items), item, resolve, AsTarget)
    {
      match item
      case ClearDefaults =>
        defaultTargets := [];
        buildTargets.Clear();
        buildPlusDefault.Clear();
      case NodeItem(n) =>
        defaultTargets := defaultTargets + [n];
        buildTargets.AddDefault([AsTarget(n)]);
        buildPlusDefault.AddDefault([AsTarget(n)]);
      case Pattern(name) =>
        var nodes := resolve(name);
        assert Lift(nodes, NodeOf) == nodes;
        defaultTargets := defaultTargets + nodes;
        buildTargets.AddDefault(Lift(nodes, AsTarget));
        buildPlusDefault.AddDefault(Lift(nodes, AsTarget));
    }

    /**
     * `HelpFunction`: the first call fixes the baseline, empty or the
     * captured `PrintHelp` output, and every call appends its text.
     */
    method Help(text: string, append: bool, localOnly: bool, printHelp: bool -> string)
      requires Valid()
      modifies this`helpText, this`helpBaseline, this`helpCalls
      ensures Valid()
      ensures old(helpText).None? ==> helpBaseline == if append then printHelp(localOnly) else ""
      ensures old(helpText).Some? ==> helpBaseline == old(helpBaseline)
      ensures helpCalls == old(helpCalls) + [text]
      ensures old(helpText).None? ==> helpText == Some(helpBaseline + text)
      ensures old(helpText).Some? ==> helpText == Some(old(helpText).value + text)
    {
      var current: string;
      if helpText.None? {
        if append {
          current := printHelp(localOnly);
        } else {
          current := "";
        }
        helpBaseline := current;
      } else {
        current := helpText.value;
      }
      ConcatAppend(helpCalls, text);
      helpCalls := helpCalls + [text];
      helpText := Some(current + text);
    }

    /**
     * `set_missing_sconscript_error`: store the flag, hand back the previous
     * one. Python's default `flag=True` is left to the caller, who passes
     * `true` for a call without arguments.
     */
    method SetMissingSConscriptError(flag: bool) returns (previous: bool)
      modifies this`noMissingSConscript
      ensures previous == old(noMissingSConscript)
      ensures noMissingSConscript == flag
    {
      previous := noMissingSConscript;
      noMissingSConscript := flag;
    }
  }

  /** `_Set_Default_Targets_Has_Not_Been_Called(d, fs)`: the current directory when `d` is `None`, else `d`. */
  function DefaultTargetsNotYetSet(d: Option<seq<Target>>, dirOf: string -> Node): (r: seq<Target>)
    ensures d.None? ==> r == [Entry(dirOf("."))]
    ensures d.Some? ==> r == d.value
  {
    match d
    case None => [Entry(dirOf("."))]
    case Some(targets) => targets
  }

  function Concat(texts: seq<string>): string
  {
    if texts == [] then "" else Concat(texts[..|texts| - 1]) + texts[|texts| - 1]
  }

  lemma ConcatAppend(texts: seq<string>, t: string)
    ensures Concat(texts + [t]) == Concat(texts) + t
  {
    assert (texts + [t])[..|texts|] == texts;
  }

  /** Once `Default()` has been called, the resolver ignores both of its arguments. */
  lemma DeclaredResolverIgnoresArguments(s: Session, d1: Option<seq<Target>>, d2: Option<seq<Target>>,
                                         f1: string -> Node, f2: string -> Node)
    requires s.defaultsDeclared
    ensures s.GetDefaultTargets(d1, f1) == s.GetDefaultTargets(d2, f2)
  {
  }
}

=== FILE: wrappers.dfy ===
/** The usual optional-value datatype; `None` stands for Python's `None`. */
module Wrappers {
  datatype Option<+T> = None | Some(value: T)
}
